=== FILE: README.md ===
# Salud Móvil intake wizard — a Dafny model

Salud Móvil is a small web application that walks a patient through a health
intake. It has five steps: symptoms, a guided yes/no questionnaire, vital signs,
photos, and a summary. While online, it asks a remote language model for the next
question and for a diagnosis. While offline, it picks questions from fixed templates
and keeps the record in the browser until a connection returns.

This project models the four parts of the application that hold decision and
formatting logic, and proves properties about them:

- `offline_templates.dfy` (module `OfflineTemplates`) models the offline question
  selector. It lowercases the symptom text, strips commas and periods, and splits
  the text on white space. It returns the five-question template of the first
  keyword it finds, or the default list when there is none.
- `wizard.dfy` (module `Wizard`) models the wizard page. It holds the record, the
  shallow merge of each step's partial data, the forward and backward step
  functions, and the `Home` class. `Home` has the startup restore, `handleNext`,
  `handleBack` and `restart`. The browser's storage key shared by the page and the
  summary is the `Slot` class.
- `summary.dfy` (module `Summary`) models the summary step:
  - the `P:`/`R:` questionnaire text and the `key: value` vitals text;
  - the list-marker rewriting of `formatList` and the mail body of `generateMarkdown`;
  - the split, filter and trim of `renderBulletPoints`;
  - the `getDiagnosis` decision ladder, as the `DiagnosisView` class.
- `questionnaire.dfy` (module `Questionnaire`) models the questionnaire component as
  the `Controller` class. `Controller` holds the answer history, the current
  question, the completion flag and the offline list with its index. Its
  transitions are `fetchNextQuestion`, the connectivity effect and `handleAnswer`.
- `text.dfy` (module `Text`) models the JavaScript string operations the code relies
  on:
  - `toLowerCase`, `split(/\s+/)`, `join`, `trim`;
  - the white-space class of regular expressions.

  It also defines `Split`, a split on one character. The code never calls it; it is
  the inverse of `join('\n')` and states which lines a joined text consists of.
- `wrappers.dfy` holds the `Option` type.

Three things stand in for the outside world:

- The remote model calls are parameters. The questionnaire call is
  `Option<RemoteQuestion>` and the diagnosis call is `Option<Diagnosis>`. `None`
  means the call threw.
- Connectivity is a boolean argument of each transition.
- Storage is the `Slot` object holding `Option<FormData>`. The outcome of
  `JSON.parse` is a boolean argument of `Home.Restore`.

Vital signs are an ordered list of `Vital(key, value)` entries. That list stands for
`Object.entries` over the vitals object, in insertion order.

When the remote question call fails, the questionnaire shows the toast "No se pudo
conectar con el asistente de IA. Pasando a modo sin conexión"
(src/components/questionnaire.tsx:46-50). The toast announces a switch to offline
mode, but the code makes no such switch. The fallback list installed after a failure
(lines 52-54) changes the list's length, so both effects run again at once while the
connection is up (lines 67, 82). The connectivity effect clears the list and resets
the index (lines 72-74), and the fetch effect calls the remote assistant again,
without waiting for an answer. So the re-fetch after a failure is automatic, and every
online fetch goes to the assistant. An online answer does not move the offline index,
so repeated failures keep showing the first offline question, and the same question
can be answered again. `Questionnaire.RepeatedFailure` states this for a failure, an
answer and a second failure. The model does not clear the list after a failure (see
"## Left out").

## Model

| member | source | states |
|---|---|---|
| OfflineTemplates.Template | src/lib/offline-templates.ts:1-30 | each topic's template has exactly five non-empty questions |
| OfflineTemplates.StripPunctuation | src/lib/offline-templates.ts:47 | removes exactly the commas and periods: a character is in the result iff it is in the input and is not `,` or `.` |
| OfflineTemplates.GetOfflineQuestions | src/lib/offline-templates.ts:46-62 | every result has five non-empty entries |
| OfflineTemplates.ResultIsAFixedList | src/lib/offline-templates.ts:46-62 | every result is the default list or one of the four topic templates |
| OfflineTemplates.Words | src/lib/offline-templates.ts:47 | there is at least one word and no word holds white space; `WordsOfNormalText`, `WordsOfSentence` and `KeywordAfterRun` say which words they are |
| OfflineTemplates.FirstTopic | src/lib/offline-templates.ts:48-52 | the scan of the `for` loop; its meaning is stated by `FirstTopicAt`, `FirstTopicIndex`, `FirstTopicNone` and `FirstTopicAppend` |
| OfflineTemplates.FirstTopicAt | src/lib/offline-templates.ts:48-52 | when word i is a keyword and no earlier word is, the scan yields word i's topic |
| OfflineTemplates.FirstTopicIndex | src/lib/offline-templates.ts:48-52 | conversely, a topic found comes from some word that is a keyword, with no keyword before it |
| OfflineTemplates.FirstTopicNone | src/lib/offline-templates.ts:48-53 | the scan finds nothing iff no word is a keyword |
| OfflineTemplates.FirstTopicAppend | src/lib/offline-templates.ts:48-52 | scanning `a + b` decides on `a` when `a` holds a keyword, else on `b` |
| OfflineTemplates.SelectsFirstKeyword | src/lib/offline-templates.ts:46-53 | the selected list is the template of the first keyword among the normalised words |
| OfflineTemplates.DefaultIffNoKeyword | src/lib/offline-templates.ts:54-61 | the default list is returned iff no normalised word is a keyword |
| OfflineTemplates.StripPunctuationIdempotent | src/lib/offline-templates.ts:47 | stripping commas and periods twice is the same as once |
| OfflineTemplates.LowerStripCommute | src/lib/offline-templates.ts:47 | lowercasing and stripping commutes |
| OfflineTemplates.CaseInsensitive | src/lib/offline-templates.ts:47 | lowercasing the input first does not change the selected list |
| OfflineTemplates.PunctuationIgnored | src/lib/offline-templates.ts:47 | removing commas and periods first does not change the selected list |
| OfflineTemplates.StripPunctuationKeepsOthers | src/lib/offline-templates.ts:47 | text without commas and periods is left unchanged |
| OfflineTemplates.StripPunctuationAppend | src/lib/offline-templates.ts:47 | stripping distributes over concatenation |
| OfflineTemplates.NormalJoin | src/lib/offline-templates.ts:47 | words without upper-case letters, commas or periods, joined by spaces, pass normalisation unchanged |
| OfflineTemplates.WordsOfSentence | src/lib/offline-templates.ts:47 | such words joined by single spaces are read back as exactly those words |
| OfflineTemplates.KeywordsAreNormalWords | src/lib/offline-templates.ts:32-44 | every key of the keyword table is a non-empty, lower-case word without white space or punctuation |
| OfflineTemplates.SingleKeyword | src/lib/offline-templates.ts:32-52 | a keyword on its own selects its topic's template |
| OfflineTemplates.GripeSynonyms | src/lib/offline-templates.ts:32-35 | "flu" and "resfriado" both select the gripe list |
| OfflineTemplates.TosSynonym | src/lib/offline-templates.ts:36-37 | "cough" selects the tos list |
| OfflineTemplates.HeridaSynonyms | src/lib/offline-templates.ts:38-40 | "corte" and "lesion" both select the herida list |
| OfflineTemplates.ErupcionSynonyms | src/lib/offline-templates.ts:41-43 | "sarpullido" and "ronchas" both select the erupcion list |
| OfflineTemplates.LowerWordIsNormal | src/lib/offline-templates.ts:32-44 | a word of lower-case ASCII letters holds no white space, capital, comma or period |
| OfflineTemplates.NormalSpace | src/lib/offline-templates.ts:47 | a normalised word followed by a space is still normalised text |
| OfflineTemplates.LowerNormalStart | src/lib/offline-templates.ts:47 | lowercasing leaves a start without capitals unchanged and lowercases the rest |
| OfflineTemplates.StripNormalStart | src/lib/offline-templates.ts:47 | removing commas and periods leaves a start without them unchanged and strips the rest |
| OfflineTemplates.NormalPrefix | src/lib/offline-templates.ts:47 | normalising a normalised word, a space and any rest keeps the word and the space in front |
| OfflineTemplates.LeadingKeyword | src/lib/offline-templates.ts:46-53 | text that starts with a keyword and a space selects that keyword's template, whatever follows |
| OfflineTemplates.NormalAroundRun | src/lib/offline-templates.ts:47 | two normalised words around a run of white space are still normalised text |
| OfflineTemplates.WordsOfNormalText | src/lib/offline-templates.ts:47 | text already lower-case and free of commas and periods is split on white space as it stands |
| OfflineTemplates.KeywordAfterRun | src/lib/offline-templates.ts:46-53 | a keyword after a non-keyword word and a white-space run of any length (several spaces, a blank line) selects that keyword's template |
| OfflineTemplates.BlankLineExample | src/lib/offline-templates.ts:47-52 | "dolor\n\ntos" selects the tos list: a keyword after a blank line is found |
| OfflineTemplates.KeywordWithTrailingPunctuation | src/lib/offline-templates.ts:47-52 | a keyword followed by a comma or a period still selects its template |
| OfflineTemplates.UpperCaseExample | src/lib/offline-templates.ts:47-52 | "TOS" selects the tos list |
| OfflineTemplates.CommaExample | src/lib/offline-templates.ts:47-52 | "tos," selects the tos list |
| OfflineTemplates.PeriodExample | src/lib/offline-templates.ts:47-52 | "gripe." selects the gripe list |
| OfflineTemplates.ThreeWordsExample | src/lib/offline-templates.ts:47 | "tos y gripe" normalises to the three words tos, y, gripe |
| OfflineTemplates.FirstKeywordExample | src/lib/offline-templates.ts:48-52 | "tos y gripe" selects the tos list: the first keyword wins |
| OfflineTemplates.PrefixExample | src/lib/offline-templates.ts:49-50 | "toser" gets the default list: only whole words match |
| OfflineTemplates.AccentExample | src/lib/offline-templates.ts:49-50 | "lesión" gets the default list: accented spellings do not match |
| OfflineTemplates.OtherPunctuationExample | src/lib/offline-templates.ts:47-52 | "¡tos!" gets the default list: only commas and periods are stripped |
| OfflineTemplates.NoMatchSingleWord | src/lib/offline-templates.ts:54-61 | a single normalised word that is not a key gets the default list |
| Text.Lower | src/lib/offline-templates.ts:47 | an upper-case ASCII letter maps to its lower-case letter, everything else to itself; the result is never upper case |
| Text.LowerString | src/lib/offline-templates.ts:47 | same length, character by character `Lower` |
| Text.LowerStringAppend | src/lib/offline-templates.ts:47 | lowercasing distributes over concatenation |
| Text.LowerStringIdempotent | src/lib/offline-templates.ts:47 | lowercasing twice is lowercasing once |
| Text.LowerStringKeepsLower | src/lib/offline-templates.ts:47 | text without upper-case letters is unchanged |
| Text.DropWhitespace | src/lib/offline-templates.ts:47 | the result is a suffix of the input that starts with a non-white-space character, and only white space was dropped |
| Text.SplitWhitespace | src/lib/offline-templates.ts:47 | splitting on white space runs gives at least one piece, and no piece holds white space; how runs split is stated by `SplitWordRun`, `LeadingRun`, `TrailingRun` and `SplitTwoWords` |
| Text.SplitWhitespaceFrom | src/lib/offline-templates.ts:47 | at least one piece, none holding white space |
| Text.DropWhitespaceRun | src/lib/offline-templates.ts:47 | dropping leading white space removes a whole run and stops at the next non-white-space character |
| Text.SplitAtRun | src/lib/offline-templates.ts:47 | a white-space run of any length before the next character that is not white space ends the word being read |
| Text.SplitWordRun | src/lib/offline-templates.ts:47 | a word, a white-space run and a rest split into the word followed by the rest's pieces |
| Text.LeadingRun | src/lib/offline-templates.ts:47 | a leading white-space run gives an empty first piece: `split(ws + rest) == [""] + split(rest)` |
| Text.TrailingRun | src/lib/offline-templates.ts:47 | a trailing white-space run gives an empty last piece |
| Text.SplitTwoWords | src/lib/offline-templates.ts:47 | two words around a white-space run of any length split into exactly those two words |
| Text.SplitSingleWord | src/lib/offline-templates.ts:47 | a word without white space splits into itself |
| Text.SplitFirstWordAny | src/lib/offline-templates.ts:47 | whatever follows the first white space, the first piece is the word before it |
| Text.JoinStartsWithFirst | src/lib/offline-templates.ts:47 | a join whose first piece is non-empty starts with that piece's first character |
| Text.SplitJoinWords | src/lib/offline-templates.ts:47 | non-empty words without white space, joined by spaces, split back into the same words |
| Text.Join | src/components/summary.tsx:47-53 | `join`, as used at lines 47 and 53; its meaning is stated by `SplitJoin`, `JoinExcludes` and `JoinSeparatorAfterFirst` |
| Text.Split | src/components/summary.tsx:47-53 | the inverse of the `join('\n')` at lines 47 and 53 (see `SplitJoin`): at least one piece, and no piece holds the separator |
| Text.SplitWithoutSeparator | src/components/summary.tsx:47 | text without the separator splits into itself |
| Text.SplitAtFirst | src/components/summary.tsx:47 | splitting `a + [c] + b` gives `a` followed by the pieces of `b` |
| Text.SplitJoin | src/components/summary.tsx:47 | pieces without the separator, joined by it, split back into the same pieces |
| Text.SplitJoinFirst | src/components/summary.tsx:85-95 | splitting a join of separator-free leading pieces reads the first piece back and continues with the join of the rest |
| Text.SplitJoinPrefix | src/components/summary.tsx:85-95 | splitting a join reads the leading separator-free pieces back one by one |
| Text.JoinExcludes | src/components/summary.tsx:85-95 | a character in no piece and not in the separator is not in the join |
| Text.JoinSeparatorAfterFirst | src/components/summary.tsx:85 | a join of two or more pieces holds the separator right after the first piece |
| Text.SplitEach | src/components/summary.tsx:47-53 | the pieces of each text of a list, one text after the other; at least one piece per text |
| Text.SplitAround | src/components/summary.tsx:47-53 | the pieces of `a + [c] + b` are those of `a` followed by those of `b`, whatever `a` and `b` hold |
| Text.SplitJoinAll | src/components/summary.tsx:47-53 | splitting a join on its one-character separator gives the pieces of every joined text in order, even when the texts hold the separator |
| Text.SplitEachAppend | src/components/summary.tsx:47-53 | the pieces of `a + b` are those of `a` followed by those of `b` |
| Text.SplitEachPlain | src/components/summary.tsx:47-53 | texts without the separator are their own pieces |
| Text.SplitEachOne | src/components/summary.tsx:47-53 | the pieces of a one-text list are the pieces of that text |
| Text.SplitEachThree | src/components/summary.tsx:85-95 | separator-free runs stay as they are and each text between them gives its own pieces in its place |
| Text.TrimCharSpace | src/components/summary.tsx:110 | a character that is not white space followed by one that is trims to the first |
| Text.TrimKeepsTrimmed | src/components/summary.tsx:109 | text whose ends are not white space is its own trim |
| Text.TrimEnd | src/components/summary.tsx:109 | the result is a prefix of the input that ends in a non-white-space character, and only white space was dropped |
| Text.Trim | src/components/summary.tsx:109-110 | the result has no white space at either end; it is empty iff the input is all white space; it is a slice `s[i..j]` of the input with only white space before `i` and from `j` on |
| Text.TrimIsSlice | src/components/summary.tsx:109-110 | dropping the leading run and then the trailing run leaves such a slice |
| Text.SliceBetweenRuns | src/components/summary.tsx:109-110 | a prefix of a suffix, with white space before the suffix and after the prefix, is a slice with only white space outside it |
| Wizard.Merge | src/app/page.tsx:56 | a key present in the partial data, even as undefined, replaces the old value; an absent key keeps it |
| Wizard.MergeTwice | src/app/page.tsx:56 | two merges in a row equal one merge of the combined partial data, the later keys winning |
| Wizard.OrUndefined | src/components/media-upload.tsx:37-38 | a photo field is defined iff the photo is a non-empty string, and then it holds that photo |
| Wizard.SymptomsSubmitted | src/components/symptom-form.tsx:33 | submitting symptoms sets the symptoms and keeps every other field |
| Wizard.VitalsSkipped | src/components/vitals-form.tsx:124 | skipping the vitals leaves the record unchanged |
| Wizard.MediaSubmitted | src/components/media-upload.tsx:36-39 | both photo fields are overwritten, and a missing photo erases one recorded earlier |
| Wizard.IndexOf | src/app/page.tsx:58-59 | every step is found in the forward order, at its own position |
| Wizard.NextStep | src/app/page.tsx:57-61 | summary stays at summary; any other step moves one position forward in the order at line 58 |
| Wizard.PreviousStep | src/app/page.tsx:65-69 | symptoms stays at symptoms; any other step moves one position back |
| Wizard.IndexOfOrder | src/app/page.tsx:58 | `indexOf` of the i-th step is i |
| Wizard.IndexOfInjective | src/app/page.tsx:58 | two steps at the same position are the same step |
| Wizard.BackUndoesNext | src/app/page.tsx:57-69 | for every step but summary, back after forward returns to the step |
| Wizard.NextUndoesBack | src/app/page.tsx:57-69 | for every step but symptoms, forward after back returns to the step |
| Wizard.ForwardPath | src/app/page.tsx:58 | the forward order is symptoms, questionnaire, vitals, media, summary (not the order of the union type) |
| Wizard.Slot.constructor | src/app/page.tsx:30 | the storage slot starts with the given content |
| Wizard.Home.constructor | src/app/page.tsx:33-35 | the wizard starts at symptoms with an empty record, not yet initialised |
| Wizard.Home.Restore | src/app/page.tsx:38-53 | a saved record that parses is restored and the wizard jumps to summary; one that does not parse is removed and the state is kept; nothing saved changes nothing |
| Wizard.Home.HandleNext | src/app/page.tsx:55-62 | the record becomes the shallow merge and the step its successor |
| Wizard.Home.HandleBack | src/app/page.tsx:64-70 | the step becomes its predecessor and the record is unchanged |
| Wizard.Home.Restart | src/app/page.tsx:72-76 | empty record, first step, storage slot cleared |
| Summary.PairText | src/components/summary.tsx:46 | the `P: q\nR: a` text of one pair; its lines are stated by `AnswerLines` and `QuestionnaireTextLines` |
| Summary.PairTexts | src/components/summary.tsx:45-46 | one `P: q\nR: a` text per pair, in list order |
| Summary.QuestionnaireText | src/components/summary.tsx:45-47 | the text is empty iff the list is absent or empty |
| Summary.AnswerLines | src/components/summary.tsx:45-47 | two lines per pair, the `P:` line of pair i at 2i and its `R:` line at 2i+1 |
| Summary.JoinPairTexts | src/components/summary.tsx:45-47 | joining the pair texts by newlines is joining their `P:` and `R:` lines by newlines |
| Summary.QuestionnaireTextLines | src/components/summary.tsx:45-47 | with single-line questions and answers, the text splits on newlines into exactly the `P:`/`R:` lines in order |
| Summary.AnswerLinesSingle | src/components/summary.tsx:45-47 | single-line questions and answers give lines without newlines |
| Summary.KeptVitals | src/components/summary.tsx:51 | an entry is kept iff its value is present and non-empty; order is stated by `KeptVitalsAppend` and `KeptVitalsOne` |
| Summary.KeptVitalsAppend | src/components/summary.tsx:51 | the kept entries of `a + b` are those of `a` followed by those of `b` |
| Summary.KeptVitalsOne | src/components/summary.tsx:51 | a single entry is kept iff its value is present and non-empty |
| Summary.VitalLines | src/components/summary.tsx:52 | line i is `key: value` of entry i |
| Summary.VitalsText | src/components/summary.tsx:49-54 | the text is undefined iff the vitals are absent |
| Summary.VitalLineSingle | src/components/summary.tsx:52 | a single-line key and value give a single-line `key: value` line |
| Summary.VitalLinesSingle | src/components/summary.tsx:52 | entries with single-line keys and values give lines without newlines |
| Summary.VitalsTextLines | src/components/summary.tsx:49-54 | with single-line entries, the text splits into one `key: value` line per kept entry, in entry order |
| Summary.EmptyVitalsText | src/components/summary.tsx:49-54 | vitals with no filled-in value give the empty text, not undefined |
| Summary.ReplaceMarkers | src/components/summary.tsx:82 | the first `replace`; its meaning is stated by `ReplaceMarkersKeepsPlain`, `ReplaceMarkersSplice`, `ReplaceMarkersFirst` and `ReplaceMarkersLeavesNone` |
| Summary.ReplaceBullets | src/components/summary.tsx:82 | the second `replace`; its meaning is stated by `ReplaceBulletsKeepsPlain`, `ReplaceBulletsSplice`, `ReplaceBulletsFirst` and `ReplaceBulletsLeavesNone` |
| Summary.FormatList | src/components/summary.tsx:81-83 | `formatList`; its meaning is stated by `FormatListNormalises` and `FormatListNoNewline` |
| Summary.ReplaceMarkersKeepsPlain | src/components/summary.tsx:82 | text without `\n-` or `* ` passes the first rewrite unchanged |
| Summary.ReplaceBulletsKeepsPlain | src/components/summary.tsx:82 | text without `\n• ` passes the second rewrite unchanged |
| Summary.ReplaceMarkersSplice | src/components/summary.tsx:82 | a `\n-` or `* ` after marker-free text becomes the newline text and `- `, and the text before it is copied |
| Summary.ReplaceBulletsSplice | src/components/summary.tsx:82 | a `\n• ` after bullet-free text becomes the newline text and `• `, and the text before it is copied |
| Summary.ReplaceMarkersFirst | src/components/summary.tsx:82 | the first rewrite starts with `%` at a marker and with the input's first character elsewhere |
| Summary.ReplaceBulletsFirst | src/components/summary.tsx:82 | the second rewrite starts with `%` at a bullet and with the input's first character elsewhere |
| Summary.NewlineMarkerIsInert | src/components/summary.tsx:82 | the `%0A- ` and `%0A• ` replacements start no marker and no bullet |
| Summary.NoMarkerSuffix | src/components/summary.tsx:82 | a suffix of marker-free text is marker-free |
| Summary.ReplaceMarkersLeavesNone | src/components/summary.tsx:82 | after the first rewrite no `\n-` or `* ` is left |
| Summary.ReplaceBulletsLeavesNone | src/components/summary.tsx:82 | after the second rewrite no `\n• ` is left, and no marker is created |
| Summary.FormatListNormalises | src/components/summary.tsx:81-83 | `formatList` leaves no marker and no bullet, and text with neither is unchanged |
| Summary.MarkdownLines | src/components/summary.tsx:85-95 | the template has seventeen lines |
| Summary.Markdown | src/components/summary.tsx:75-96 | the body is empty iff there is no result |
| Summary.GenerateMarkdown | src/components/summary.tsx:75-96 | `generateMarkdown` as written, with `%0A` as newline; `Markdown` and `MarkdownHasNoLineBreaks` state what it gives |
| Summary.MailBody | src/components/summary.tsx:85-95 | the body with real newlines (see Findings); its lines are stated by `MailBodyLines` and `MailBodyAllLines` |
| Summary.ReplaceMarkersNoNewline | src/components/summary.tsx:82 | with `%0A` as newline, the first rewrite adds no line break |
| Summary.ReplaceBulletsNoNewline | src/components/summary.tsx:82 | with `%0A` as newline, the second rewrite adds no line break |
| Summary.FormatListNoNewline | src/components/summary.tsx:81-83 | with `%0A` as newline, `formatList` adds no line break |
| Summary.HeadingsHaveNoNewline | src/components/summary.tsx:85-94 | the title, disclaimer, rule and four headings are single lines |
| Summary.MarkdownHasNoLineBreaks | src/components/summary.tsx:78-99 | as written, the mail body has no line break for single-line fields, and `%0A` follows the title (see Findings) |
| Summary.MailBodyLines | src/components/summary.tsx:85-90 | with real newlines, the body's first ten lines are the title, the disclaimer, the rule, the summary heading with the summary, and the diagnoses heading, separated by blank lines (see Findings) |
| Summary.MailBodyGeneral | src/components/summary.tsx:85-95 | with real newlines and a single-line summary, whatever the three list fields hold, the body splits into the fixed template lines in order, with the lines of each formatted list in its place |
| Summary.FixedLinesPlain | src/components/summary.tsx:85-95 | the fixed runs of template lines hold no line break when their texts hold none |
| Summary.FieldNewlineKept | src/components/summary.tsx:82 | as written, a field's own newline before `* ` is kept: `"* a\n* b"` becomes `"%0A- a\n%0A- b"` |
| Summary.NoNewlineNoBullet | src/components/summary.tsx:82 | text without newlines holds no `\n• ` |
| Summary.MailBodyAllLines | src/components/summary.tsx:85-95 | with real newlines and marker-free single-line fields, the body splits into exactly the seventeen template lines |
| Summary.SplitMarkersFrom | src/components/summary.tsx:109 | splitting on `\n-` or `* ` gives at least one piece |
| Summary.TrimmedItems | src/components/summary.tsx:109-110 | there are no more items than pieces, and each item is non-empty and trimmed; `TrimmedItemsAppend` and `TrimmedItemsOne` state which items, in order |
| Summary.TrimmedItemsAppend | src/components/summary.tsx:109-110 | the items of `a + b` are those of `a` followed by those of `b` |
| Summary.TrimmedItemsOne | src/components/summary.tsx:109-110 | one piece gives its trimmed text, or nothing when it is only white space |
| Summary.RenderBulletPoints | src/components/summary.tsx:106-114 | every rendered item is non-empty and has no white space at either end; `RenderBulletList` and `RenderMarkerFreeList` state which items |
| Summary.SplitMarkersPlain | src/components/summary.tsx:109 | marker-free text is one piece |
| Summary.SplitMarkersAt | src/components/summary.tsx:109 | marker-free text before a marker ends the current piece there |
| Summary.SplitBulletList | src/components/summary.tsx:109 | an item followed by `* item` entries splits into exactly those items |
| Summary.TrimmedItemsKeepsTrimmed | src/components/summary.tsx:109 | non-empty trimmed pieces pass the filter and trim unchanged |
| Summary.SplitWholeBulletList | src/components/summary.tsx:109 | a `* item` list splits into an empty piece followed by its items |
| Summary.TrimmedItemsSkipsEmpty | src/components/summary.tsx:109 | an empty leading piece is filtered out |
| Summary.RenderBulletList | src/components/summary.tsx:106-114 | rendering a `* item` list of trimmed, marker-free items gives back exactly its items |
| Summary.RenderMarkerFreeList | src/components/summary.tsx:106-114 | rendering a `* item` list of marker-free items gives the items trimmed, in order, with those that are only white space dropped |
| Summary.BulletListOne | src/components/summary.tsx:109 | a one-item list is `* ` and the item |
| Summary.PaddedWordHasNoMarker | src/components/summary.tsx:109 | two characters whose first is neither a newline nor an asterisk hold no `\n-` and no `* ` |
| Summary.RenderPaddedItem | src/components/summary.tsx:106-114 | a one-item list `* ` + a character + a trailing white-space character renders as that character alone |
| Summary.TrimPaddedWord | src/components/summary.tsx:110 | "a " trims to "a" |
| Summary.PaddedItemExample | src/components/summary.tsx:106-114 | "* a " renders as the single item "a" |
| Summary.Request | src/components/summary.tsx:34-62 | there is a request iff the symptoms are present and non-empty; it carries the symptoms and both photo fields unchanged, an empty answers text iff there are no answers, and vitals text iff there are vitals |
| Summary.RequestLines | src/components/summary.tsx:45-54 | the request's answers text splits into the `P:`/`R:` lines and its vitals text into the `key: value` lines |
| Summary.DiagnosisView.constructor | src/components/summary.tsx:21-23 | no result, loading, no error |
| Summary.DiagnosisView.GetDiagnosis | src/components/summary.tsx:27-68 | offline: the record is saved and no request is made; online without symptoms: the error is set, no request is made and the slot is untouched; otherwise: the slot is cleared, the request is made, and the result or the failure message is set |
| Summary.SaveOfflineThenReload | src/components/summary.tsx:28-32 | a record saved offline is restored by the next start of the wizard, which opens on the summary |
| Summary.OnlineRequestClearsDraft | src/components/summary.tsx:40-42 | after an online request the next start of the wizard restores nothing |
| Questionnaire.Controller.constructor | src/components/questionnaire.tsx:21-29 | the history starts from the record's answers or empty; no current question, not complete, no offline list, index 0 |
| Questionnaire.Controller.FetchNext | src/components/questionnaire.tsx:31-67 | online: completion on `complete` or an empty question, else the question becomes current; failure: the offline list for the symptoms is installed and its first entry shown, without completing; offline: the entry at the index becomes current, or the questionnaire completes |
| Questionnaire.Controller.ConnectivityChanged | src/components/questionnaire.tsx:69-82 | back online, a pending offline list is cleared and the index reset; offline without a list, the list for the symptoms is installed; the history is never touched |
| Questionnaire.Controller.Answer | src/components/questionnaire.tsx:90-99 | without a current question nothing changes; otherwise the pair is appended at the end, and the index moves by one offline and stays online |
| Questionnaire.Controller.Progress | src/components/questionnaire.tsx:101-102 | the numerator is the number of answers; online the denominator is one more than that, so the bar never reaches the end; offline the denominator is the list length |
| Questionnaire.Controller.Continue | src/components/questionnaire.tsx:122 | the partial data replaces the record's questionnaire with the whole history and keeps every other field |
| Questionnaire.AnswerOffline | src/components/questionnaire.tsx:59-97 | answering offline from the first question of a five-entry list asks the entries in order, records the k-th reply as the k-th answer, keeps the earlier answers, asks at most five, and completes after five replies |
| Questionnaire.OfflineSession | src/components/questionnaire.tsx:59-97 | with the offline list installed before the first offline fetch (the intended behaviour, see Findings), the questions asked are the entries of the list in order, each with its reply as the answer; earlier answers are kept; at most five questions are asked, and five replies complete the questionnaire |
| Questionnaire.GoOfflineWithoutList | src/components/questionnaire.tsx:57-87 | going offline with no list installed, as written: the fetch sees the empty list and completes; the list for the symptoms is then installed and its first entry made current, but the questionnaire stays complete and the history is unchanged |
| Questionnaire.DropAfterOnlineQuestion | src/components/questionnaire.tsx:31-99 | as written: after an online question is answered, losing the connection completes the questionnaire with that answer recorded and the offline list loaded but never asked |
| Questionnaire.MountOffline | src/components/questionnaire.tsx:21-87 | mounting while offline, as written: the questionnaire is complete with the record's answers only, although the first offline question has been loaded |
| Questionnaire.RepeatedFailure | src/components/questionnaire.tsx:33-97 | online, a failure, an answer and a second failure show the first offline question again, the one just answered |

## Left out

- The remote model calls (`aiDrivenQuestionnaire`, `generateDiagnosisRecommendation`) are parameters. Their prompts and schemas are not part of this model.
- `localStorage` and JSON are modelled by the `Slot` object and a boolean parse outcome. The text stored under the key is not modelled.
- The `useOnlineStatus` hook is a boolean argument of each transition.
- Questionnaire.Controller.FetchNext: after a failed remote call, the model keeps the fallback list installed. In the source, the new list length makes the effects run again while online (questionnaire.tsx:67, 82). That clears the list, resets the index and calls the assistant again at once. This re-run is not modelled, so the model's state after a failure keeps a list that the source has already dropped.
- React's scheduling is not modelled. Each handler is one atomic transition. A fetch that runs in the same commit as the connectivity effect sees the state of the render before; `Questionnaire.GoOfflineWithoutList` models this by fetching before installing the list (see Findings).
- `isLoading` of the questionnaire, toasts, skeletons and all markup are left out.
- `Questionnaire.Controller.Progress`: only the integer numerator and denominator are modelled. The floating-point percentage is left out.
- `encodeURIComponent` and the mailto navigation are not modelled. The finding below assumes that the mail client decodes the body exactly once.
- `Text.Lower`: only ASCII letters are lowercased. Keywords are plain ASCII words without `k`. Among other characters, only `İ` (U+0130) and the Kelvin sign (U+212A) lowercase to an ASCII letter, `i` followed by a combining dot and `k` respectively, so neither can complete a keyword. The selected template is therefore the same as with full Unicode lowercasing, but other text may differ from JavaScript's `toLowerCase`.
- Lengths are counted in characters, not UTF-16 code units. The symptom form's minimum of ten characters is a widget rule, and the form widgets are left out.
- Keyword lookup in a plain JavaScript object also matches prototype keys such as `constructor`. In the source, the second check (`offlineTemplates[templateKey]`) rejects those, so the model's lookup over the table's own keys is exact.
- The vitals object is an ordered list of entries. The five named vital fields are not modelled.

## Findings

| source | as written | input that shows it | evidently intended | confidence | as-written member | corrected member |
|---|---|---|---|---|---|---|
| src/components/questionnaire.tsx:57-87 | Going offline with no offline list installed (mounting while offline, or losing the connection during an online pass, including one that fell back, since a fallback list is cleared again while online) runs both effects in the same commit. The fetch callback still holds the empty list of line 28, finds no entry at line 59 and completes the questionnaire at line 63. The list installed at line 79 only lets the re-run fetch set its first question, which the completion screen at line 118 hides, and nothing resets the completion flag | an online pass in which the assistant asks one question, which is answered, and then the connection drops; also mounting the questionnaire while the connectivity hook reports offline | the first offline question is shown and the offline questions are asked in order | not executed | Questionnaire.DropAfterOnlineQuestion and Questionnaire.MountOffline, both through Questionnaire.GoOfflineWithoutList | Questionnaire.OfflineSession |
| src/components/summary.tsx:78-99 | `generateMarkdown` writes every newline of its template, and every list marker's newline, as the three characters `%0A`. `handleSendEmail` then applies `encodeURIComponent`, which turns each `%` into `%25`, so the mail client shows a literal `%0A` wherever the template meant a line break. Only a field's own newlines that no marker consumes (one before `* `, say) stay real line breaks; when the fields hold no newline, the body has no line break at all | any result whose fields hold no newline, e.g. summary `s` and empty lists: the body is one line, `Salud Móvil - Resumen y Recomendaciones%0A%0AAviso: …` | real newlines in the body, which `encodeURIComponent` turns into `%0A`, so that the mail shows one line per template line | not executed | Summary.MarkdownHasNoLineBreaks | Summary.MailBody, with its line structure proved in Summary.MailBodyLines, Summary.MailBodyGeneral and Summary.MailBodyAllLines |

=== FILE: offline_templates.dfy ===
/**
 * The offline question selector (src/lib/offline-templates.ts): a fixed table of
 * five-question templates, a keyword table mapping words to templates, and
 * `getOfflineQuestions`, which lower-cases the symptom text, removes commas and
 * periods, splits it into words and returns the template of the first word that
 * is a keyword, or a fixed default list when none is.
 */
module OfflineTemplates {
  import opened Wrappers
  import opened Text

  /** The keys of `offlineTemplates`. */
  datatype Topic = Gripe | Tos | Herida | Erupcion

  /** `offlineTemplates[t]`. */
  function Template(t: Topic): (qs: seq<string>)
    ensures |qs| == 5
    ensures forall i :: 0 <= i < |qs| ==> qs[i] != ""
  {
    match t
    case Gripe => GripeQuestions
    case Tos => TosQuestions
    case Herida => HeridaQuestions
    case Erupcion => ErupcionQuestions
  }

  const GripeQuestions: seq<string> := [
    "¿El paciente tiene fiebre superior a 38°C?",
    "¿Presenta dolor de cabeza?",
    "¿Tiene congestión nasal o secreción nasal?",
    "¿Siente dolores musculares o corporales?",
    "¿Ha tenido tos seca recientemente?"
  ]

  const TosQuestions: seq<string> := [
    "¿La tos es seca o produce flema?",
    "¿La tos ha durado más de una semana?",
    "¿Hay sibilancias o dificultad para respirar con la tos?",
    "¿El paciente siente dolor de garganta?",
    "¿Ha tenido fiebre junto con la tos?"
  ]

  const HeridaQuestions: seq<string> := [
    "¿La herida es profunda o superficial?",
    "¿Hay signos de infección como enrojecimiento, hinchazón o pus?",
    "¿El sangrado se ha detenido?",
    "¿El paciente está vacunado contra el tétanos?",
    "¿La herida fue causada por un objeto oxidado o sucio?"
  ]

  const ErupcionQuestions: seq<string> := [
    "¿La erupción causa picazón?",
    "¿Se presenta en una zona específica o en todo el cuerpo?",
    "¿Las lesiones son planas, elevadas o con líquido?",
    "¿El paciente ha estado en contacto con alérgenos conocidos?",
    "¿Ha aparecido fiebre junto con la erupción?"
  ]

  /** The list returned when no word of the symptoms is a keyword. */
  const DefaultQuestions: seq<string> := [
    "¿El paciente tiene fiebre?",
    "¿Siente algún tipo de dolor?",
    "¿Hay alguna dificultad para respirar?",
    "¿Ha comido algo inusual recientemente?",
    "¿Los síntomas han aparecido de repente?"
  ]

  /** `keywordMap`: each keyword, synonyms included, and the template it selects. */
  const KeywordMap: map<string, Topic> := map[
    "gripe" := Gripe, "flu" := Gripe, "resfriado" := Gripe,
    "tos" := Tos, "cough" := Tos,
    "corte" := Herida, "herida" := Herida, "lesion" := Herida,
    "sarpullido" := Erupcion, "erupcion" := Erupcion, "ronchas" := Erupcion
  ]

  predicate IsPunctuation(c: char) {
    c == ',' || c == '.'
  }

  /** `s.replace(/[,.]/g, '')`. */
  function StripPunctuation(s: string): (r: string)
    ensures |r| <= |s|
    ensures forall c :: c in r <==> c in s && !IsPunctuation(c)
  {
    if s == [] then []
    else if IsPunctuation(s[0]) then StripPunctuation(s[1..])
    else [s[0]] + StripPunctuation(s[1..])
  }

  /** The words `getOfflineQuestions` scans: lower-cased, commas and periods removed,
      split on runs of white space. */
  function Words(symptoms: string): (words: seq<string>)
    ensures |words| >= 1
    ensures forall w :: w in words ==> NoWhitespace(w)
  {
    SplitWhitespace(StripPunctuation(LowerString(symptoms)))
  }

  /** The `for` loop: the template key of the first word that is a keyword, if any. */
  function FirstTopic(words: seq<string>): Option<Topic>
  {
    if words == [] then None
    else if words[0] in KeywordMap then Some(KeywordMap[words[0]])
    else FirstTopic(words[1..])
  }

  /** `getOfflineQuestions(symptoms)`. */
  function GetOfflineQuestions(symptoms: string): (qs: seq<string>)
    ensures |qs| == 5
    ensures forall i :: 0 <= i < |qs| ==> qs[i] != ""
  {
    match FirstTopic(Words(symptoms))
    case Some(t) => Template(t)
    case None => DefaultQuestions
  }

  /** Every result is one of the five fixed lists and depends on nothing but the input. */
  lemma ResultIsAFixedList(symptoms: string)
    ensures GetOfflineQuestions(symptoms) == DefaultQuestions
         || exists t :: GetOfflineQuestions(symptoms) == Template(t)
  {
    match FirstTopic(Words(symptoms))
    case Some(t) =>
      assert GetOfflineQuestions(symptoms) == Template(t);
    case None =>
  }

  // ----- First match wins -----

  /** The topic found is the one of the earliest keyword. */
  lemma {:induction false} FirstTopicAt(words: seq<string>, i: nat)
    requires i < |words| && words[i] in KeywordMap
    requires forall j :: 0 <= j < i ==> words[j] !in KeywordMap
    ensures FirstTopic(words) == Some(KeywordMap[words[i]])
  {
    if i > 0 {
      FirstTopicAt(words[1..], i - 1);
    }
  }

  /** Conversely, a topic found comes from a keyword with no keyword before it. */
  lemma {:induction false} FirstTopicIndex(words: seq<string>) returns (i: nat)
    requires FirstTopic(words).Some?
    ensures i < |words| && words[i] in KeywordMap
    ensures KeywordMap[words[i]] == FirstTopic(words).value
    ensures forall j :: 0 <= j < i ==> words[j] !in KeywordMap
  {
    if words[0] in KeywordMap {
      i := 0;
    } else {
      var k := FirstTopicIndex(words[1..]);
      i := k + 1;
    }
  }

  /** No topic is found exactly when no word is a keyword. */
  lemma {:induction false} FirstTopicNone(words: seq<string>)
    ensures FirstTopic(words).None? <==> forall j :: 0 <= j < |words| ==> words[j] !in KeywordMap
  {
    if words != [] {
      FirstTopicNone(words[1..]);
      if words[0] !in KeywordMap {
        assert forall j :: 1 <= j < |words| ==> words[j] == words[1..][j - 1];
      }
    }
  }

  /** Scanning `a + b` decides on `a` when `a` holds a keyword, and on `b` otherwise. */
  lemma {:induction false} FirstTopicAppend(a: seq<string>, b: seq<string>)
    ensures FirstTopic(a + b) == if FirstTopic(a).Some? then FirstTopic(a) else FirstTopic(b)
  {
    if a != [] {
      assert (a + b)[1..] == a[1..] + b;
      FirstTopicAppend(a[1..], b);
    } else {
      assert a + b == b;
    }
  }

  /** The selected list is the template of the first keyword among the words. */
  lemma SelectsFirstKeyword(symptoms: string, i: nat)
    requires i < |Words(symptoms)| && Words(symptoms)[i] in KeywordMap
    requires forall j :: 0 <= j < i ==> Words(symptoms)[j] !in KeywordMap
    ensures GetOfflineQuestions(symptoms) == Template(KeywordMap[Words(symptoms)[i]])
  {
    FirstTopicAt(Words(symptoms), i);
  }

  /** The default list is returned exactly when no word is a keyword. */
  lemma DefaultIffNoKeyword(symptoms: string)
    ensures GetOfflineQuestions(symptoms) == DefaultQuestions
        <==> forall j :: 0 <= j < |Words(symptoms)| ==> Words(symptoms)[j] !in KeywordMap
  {
    FirstTopicNone(Words(symptoms));
    forall t: Topic ensures Template(t) != DefaultQuestions {
      assert Template(t)[0] != DefaultQuestions[0];
    }
  }

  // ----- Normalisation -----

  lemma {:induction false} StripPunctuationIdempotent(s: string)
    ensures StripPunctuation(StripPunctuation(s)) == StripPunctuation(s)
  {
    if s != [] {
      StripPunctuationIdempotent(s[1..]);
      if !IsPunctuation(s[0]) {
        assert ([s[0]] + StripPunctuation(s[1..]))[1..] == StripPunctuation(s[1..]);
      }
    }
  }

  /** Lower-casing never creates or removes a comma or a period, so the two steps commute. */
  lemma {:induction false} LowerStripCommute(s: string)
    ensures LowerString(StripPunctuation(s)) == StripPunctuation(LowerString(s))
  {
    if s != [] {
      LowerStripCommute(s[1..]);
      assert LowerString(s)[1..] == LowerString(s[1..]);
      if !IsPunctuation(s[0]) {
        assert ([s[0]] + StripPunctuation(s[1..]))[1..] == StripPunctuation(s[1..]);
      }
    }
  }

  /** Matching ignores case: the text and its lower-cased form select the same list. */
  lemma CaseInsensitive(symptoms: string)
    ensures GetOfflineQuestions(LowerString(symptoms)) == GetOfflineQuestions(symptoms)
  {
    LowerStringIdempotent(symptoms);
  }

  /** Commas and periods are ignored: removing them first selects the same list. */
  lemma PunctuationIgnored(symptoms: string)
    ensures GetOfflineQuestions(StripPunctuation(symptoms)) == GetOfflineQuestions(symptoms)
  {
    LowerStripCommute(symptoms);
    StripPunctuationIdempotent(LowerString(symptoms));
  }

  /** Text without commas or periods passes through unchanged. */
  lemma {:induction false} StripPunctuationKeepsOthers(s: string)
    requires forall c :: c in s ==> !IsPunctuation(c)
    ensures StripPunctuation(s) == s
  {
    if s != [] {
      assert forall c :: c in s[1..] ==> c in s;
      StripPunctuationKeepsOthers(s[1..]);
      assert s[0] in s;
      assert [s[0]] + s[1..] == s;
    }
  }

  /** Text that is already in normal form: no capitals, commas or periods. */
  predicate IsNormalText(s: string) {
    forall c :: c in s ==> !IsUpper(c) && !IsPunctuation(c)
  }

  lemma {:induction false} NormalJoin(words: seq<string>)
    requires forall w :: w in words ==> IsNormalText(w)
    ensures IsNormalText(Join(words, " "))
  {
    if |words| > 1 {
      assert forall w :: w in words[1..] ==> w in words;
      NormalJoin(words[1..]);
      assert words[0] in words;
    }
  }

  /** Normal-form words separated by single spaces are read back as those words. */
  lemma WordsOfSentence(words: seq<string>)
    requires |words| >= 1
    requires forall w :: w in words ==> w != [] && NoWhitespace(w) && IsNormalText(w)
    ensures Words(Join(words, " ")) == words
  {
    var s := Join(words, " ");
    NormalJoin(words);
    LowerStringKeepsLower(s);
    StripPunctuationKeepsOthers(s);
    SplitJoinWords(words);
  }

  /** A non-empty word of lower-case ASCII letters. */
  predicate IsLowerWord(s: string) {
    s != [] && forall c :: c in s ==> 'a' <= c <= 'z'
  }

  lemma LowerWordIsNormal(s: string)
    requires IsLowerWord(s)
    ensures NoWhitespace(s) && IsNormalText(s)
  {
  }

  /** Every keyword is a single word already in normal form. */
  lemma KeywordsAreNormalWords()
    ensures forall k :: k in KeywordMap ==> k != [] && NoWhitespace(k) && IsNormalText(k)
  {
    forall k | k in KeywordMap
      ensures k != [] && NoWhitespace(k) && IsNormalText(k)
    {
      assert IsLowerWord(k);
      LowerWordIsNormal(k);
    }
  }

  /** A keyword on its own selects its template; synonyms therefore share a template. */
  lemma SingleKeyword(w: string)
    requires w in KeywordMap
    ensures GetOfflineQuestions(w) == Template(KeywordMap[w])
  {
    KeywordsAreNormalWords();
    WordsOfSentence([w]);
    assert Join([w], " ") == w;
  }

  /** Lower-casing leaves a normal start alone. */
  lemma LowerNormalStart(a: string, rest: string)
    requires IsNormalText(a)
    ensures LowerString(a + rest) == a + LowerString(rest)
  {
    LowerStringAppend(a, rest);
    LowerStringKeepsLower(a);
  }

  /** Removing punctuation leaves a normal start alone. */
  lemma StripNormalStart(a: string, rest: string)
    requires IsNormalText(a)
    ensures StripPunctuation(a + rest) == a + StripPunctuation(rest)
  {
    StripPunctuationAppend(a, rest);
    StripPunctuationKeepsOthers(a);
  }

  /** Normalising text that starts with a normal word and a space keeps that start. */
  lemma NormalPrefix(w: string, rest: string)
    requires IsNormalText(w)
    ensures StripPunctuation(LowerString(w + " " + rest))
         == w + ([' '] + StripPunctuation(LowerString(rest)))
  {
    var a := w + " ";
    NormalSpace(w);
    LowerNormalStart(a, rest);
    StripNormalStart(a, LowerString(rest));
  }

  /** A normal word followed by a space is still normal. */
  lemma NormalSpace(w: string)
    requires IsNormalText(w)
    ensures IsNormalText(w + " ")
  {
    assert forall c :: c in w + " " ==> c in w || c == ' ';
  }

  /** Text that starts with a keyword and a space selects that keyword's template,
      whatever follows. */
  lemma LeadingKeyword(w: string, rest: string)
    requires w in KeywordMap
    ensures GetOfflineQuestions(w + " " + rest) == Template(KeywordMap[w])
  {
    KeywordsAreNormalWords();
    NormalPrefix(w, rest);
    var t := [' '] + StripPunctuation(LowerString(rest));
    var words := Words(w + " " + rest);
    assert words == SplitWhitespaceFrom(w + t, "");
    SplitFirstWordAny(w, "", t);
    assert "" + w == w;
    assert words[0] == w;
  }

  /** White space is already in normal form, so a word, a run of white space and a
      word together are normal text when the two words are. */
  lemma NormalAroundRun(a: string, ws: string, b: string)
    requires IsNormalText(a) && WhitespaceRun(ws) && IsNormalText(b)
    ensures IsNormalText(a + ws + b)
  {
    var s := a + ws + b;
    forall c | c in s
      ensures !IsUpper(c) && !IsPunctuation(c)
    {
      var k :| 0 <= k < |s| && s[k] == c;
      if k < |a| {
        assert s[k] == a[k];
      } else if k < |a| + |ws| {
        assert s[k] == ws[k - |a|];
      } else {
        assert s[k] == b[k - |a| - |ws|];
      }
    }
  }

  /** Normal text is scanned as it stands. */
  lemma WordsOfNormalText(s: string)
    requires IsNormalText(s)
    ensures Words(s) == SplitWhitespace(s)
  {
    LowerStringKeepsLower(s);
    StripPunctuationKeepsOthers(s);
  }

  /** A keyword after a word that is not one and a run of white space of any length
      (several spaces, a blank line) is found. */
  lemma KeywordAfterRun(w: string, ws: string, k: string)
    requires NoWhitespace(w) && IsNormalText(w) && w !in KeywordMap
    requires WhitespaceRun(ws) && k in KeywordMap
    ensures GetOfflineQuestions(w + ws + k) == Template(KeywordMap[k])
  {
    KeywordsAreNormalWords();
    NormalAroundRun(w, ws, k);
    WordsOfNormalText(w + ws + k);
    SplitTwoWords(w, ws, k);
    var words := Words(w + ws + k);
    assert words == [w, k];
    assert FirstTopic([k]) == Some(KeywordMap[k]);
    assert FirstTopic(words) == FirstTopic([k]) by {
      assert words[0] !in KeywordMap && words[1..] == [k];
    }
  }

  // ----- Examples -----

  lemma GripeSynonyms()
    ensures GetOfflineQuestions("flu") == GetOfflineQuestions("resfriado") == GripeQuestions
  {
    SingleKeyword("flu");
    SingleKeyword("resfriado");
    assert KeywordMap["flu"] == KeywordMap["resfriado"] == Gripe;
  }

  lemma TosSynonym()
    ensures GetOfflineQuestions("cough") == TosQuestions
  {
    SingleKeyword("cough");
    assert KeywordMap["cough"] == Tos;
  }

  lemma HeridaSynonyms()
    ensures GetOfflineQuestions("corte") == GetOfflineQuestions("lesion") == HeridaQuestions
  {
    SingleKeyword("corte");
    SingleKeyword("lesion");
    assert KeywordMap["corte"] == KeywordMap["lesion"] == Herida;
  }

  lemma ErupcionSynonyms()
    ensures GetOfflineQuestions("sarpullido") == GetOfflineQuestions("ronchas") == ErupcionQuestions
  {
    SingleKeyword("sarpullido");
    SingleKeyword("ronchas");
    assert KeywordMap["sarpullido"] == KeywordMap["ronchas"] == Erupcion;
  }


  lemma {:induction false} StripPunctuationAppend(a: string, b: string)
    ensures StripPunctuation(a + b) == StripPunctuation(a) + StripPunctuation(b)
  {
    if a == [] {
      assert a + b == b;
    } else {
      assert (a + b)[1..] == a[1..] + b;
      StripPunctuationAppend(a[1..], b);
    }
  }

  /** A keyword followed by a comma or a period still selects its template. */
  lemma KeywordWithTrailingPunctuation(w: string, p: char)
    requires w in KeywordMap && IsPunctuation(p)
    ensures GetOfflineQuestions(w + [p]) == Template(KeywordMap[w])
  {
    KeywordsAreNormalWords();
    SingleKeyword(w);
    assert StripPunctuation(w + [p]) == w by {
      StripPunctuationAppend(w, [p]);
      StripPunctuationKeepsOthers(w);
      assert StripPunctuation([p]) == [];
    }
    PunctuationIgnored(w + [p]);
  }

  /** Capitals are lower-cased before lookup. */
  lemma UpperCaseExample()
    ensures GetOfflineQuestions("TOS") == TosQuestions
  {
    SingleKeyword("tos");
    CaseInsensitive("TOS");
    assert LowerString("TOS") == "tos";
  }

  /** A trailing comma is removed before lookup. */
  lemma CommaExample()
    ensures GetOfflineQuestions("tos,") == TosQuestions
  {
    KeywordWithTrailingPunctuation("tos", ',');
    assert "tos" + [','] == "tos,";
  }

  /** A trailing period is removed before lookup. */
  lemma PeriodExample()
    ensures GetOfflineQuestions("gripe.") == GripeQuestions
  {
    assert KeywordMap["gripe"] == Gripe;
    KeywordWithTrailingPunctuation("gripe", '.');
    assert "gripe" + ['.'] == "gripe.";
  }

  lemma ThreeWordsExample()
    ensures Words("tos y gripe") == ["tos", "y", "gripe"]
  {
    WordsOfSentence(["tos", "y", "gripe"]);
    assert Join(["tos", "y", "gripe"], " ") == "tos y gripe";
  }

  /** The earlier of two keywords decides. */
  lemma FirstKeywordExample()
    ensures GetOfflineQuestions("tos y gripe") == TosQuestions
  {
    LeadingKeyword("tos", "y gripe");
    assert "tos" + " " + "y gripe" == "tos y gripe";
    assert KeywordMap["tos"] == Tos;
  }

  /** A word that merely contains a keyword does not match. */
  lemma PrefixExample()
    ensures GetOfflineQuestions("toser") == DefaultQuestions
  {
    NoMatchSingleWord("toser");
  }

  /** Accents are not folded: "lesión" is not the keyword "lesion". */
  lemma AccentExample()
    ensures GetOfflineQuestions("lesión") == DefaultQuestions
  {
    NoMatchSingleWord("lesión");
  }

  /** Punctuation other than commas and periods stays part of the word. */
  lemma OtherPunctuationExample()
    ensures GetOfflineQuestions("¡tos!") == DefaultQuestions
  {
    NoMatchSingleWord("¡tos!");
  }

  /** A keyword on the line after a blank line is still found. */
  lemma BlankLineExample()
    ensures GetOfflineQuestions("dolor\n\ntos") == TosQuestions
  {
    assert WhitespaceRun("\n\n");
    assert IsNormalText("dolor") && NoWhitespace("dolor");
    KeywordAfterRun("dolor", "\n\n", "tos");
    assert "dolor" + "\n\n" + "tos" == "dolor\n\ntos";
    assert KeywordMap["tos"] == Tos;
  }

  /** A single normal-form word that is not a keyword selects the default list. */
  lemma NoMatchSingleWord(w: string)
    requires w != [] && NoWhitespace(w) && IsNormalText(w) && w !in KeywordMap
    ensures GetOfflineQuestions(w) == DefaultQuestions
  {
    WordsOfSentence([w]);
    assert Join([w], " ") == w;
    DefaultIffNoKeyword(w);
  }
}

=== FILE: questionnaire.dfy ===
/**
 * The guided yes/no questionnaire of the intake wizard: questions come from the remote
 * assistant while online and from the fixed offline templates otherwise, and every
 * answer is appended to the history handed on to the wizard.
 */

module Questionnaire {
  import opened Wrappers
  import opened Wizard
  import opened OfflineTemplates

  /** The two answer buttons. */
  datatype Reply = Yes | No

  /** The answer text recorded for a reply. */
  function ReplyText(r: Reply): string
  {
    match r
    case Yes => "Sí"
    case No => "No"
  }

  /** The outcome of the remote questionnaire call when it succeeds. */
  datatype RemoteQuestion = RemoteQuestion(question: string, complete: bool)

  /** The state of the `Questionnaire` component. */
  class Controller {
    var history: seq<QA>
    var current: Option<string>
    var completed: bool
    var offlineQuestions: seq<string>
    var offlineIndex: nat
    /** `formData.symptoms || ''`. */
    const symptoms: string

    /** The history starts from the answers already in the record, if any. */
    constructor (formData: FormData)
      ensures history == formData.questionnaire.GetOr([])
      ensures current.None? && !completed && offlineQuestions == [] && offlineIndex == 0
      ensures symptoms == formData.symptoms.GetOr("")
    {
      history := formData.questionnaire.GetOr([]);
      current := None;
      completed := false;
      offlineQuestions := [];
      offlineIndex := 0;
      symptoms := formData.symptoms.GetOr("");
    }

    /** `fetchNextQuestion`. Online, `remote` is the assistant's reply (`None` when the
        call fails): a finished questionnaire or an empty question completes it, any
        other question becomes current, and a failure installs the offline list for the
        symptoms and shows its first entry. Offline, the entry at the offline index
        becomes current, and past the end of the list the questionnaire completes. */
    method FetchNext(isOnline: bool, remote: Option<RemoteQuestion>)
      modifies this`current, this`completed, this`offlineQuestions
      ensures isOnline && remote.Some? && (remote.value.complete || remote.value.question == "") ==>
        completed && current == old(current) && offlineQuestions == old(offlineQuestions)
      ensures isOnline && remote.Some? && !remote.value.complete && remote.value.question != "" ==>
        current == Some(remote.value.question) && completed == old(completed)
        && offlineQuestions == old(offlineQuestions)
      ensures isOnline && remote.None? ==>
        offlineQuestions == GetOfflineQuestions(symptoms)
        && current == Some(offlineQuestions[0]) && completed == old(completed)
      ensures !isOnline && offlineIndex < |offlineQuestions| && offlineQuestions[offlineIndex] != "" ==>
        current == Some(offlineQuestions[offlineIndex]) && completed == old(completed)
        && offlineQuestions == old(offlineQuestions)
      ensures !isOnline && !(offlineIndex < |offlineQuestions| && offlineQuestions[offlineIndex] != "") ==>
        completed && current == old(current) && offlineQuestions == old(offlineQuestions)
    {
      if isOnline {
        match remote {
          case Some(res) =>
            if res.complete || res.question == "" {
              completed := true;
            } else {
              current := Some(res.question);
            }
          case None =>
            var qs := GetOfflineQuestions(symptoms);
            offlineQuestions := qs;
            // `offlineQs[0] || null`, completing when there is no first question; the
            // offline lists have five non-empty entries, so the first one is always shown.
            current := if qs[0] != "" then Some(qs[0]) else None;
            completed := completed || qs[0] == "";
        }
      } else {
        if offlineIndex < |offlineQuestions| && offlineQuestions[offlineIndex] != "" {
          current := Some(offlineQuestions[offlineIndex]);
        } else {
          completed := true;
        }
      }
    }

    /** The connectivity effect: back online, a pending offline list is dropped and its
        index reset; offline without a list, the list for the symptoms is installed. */
    method ConnectivityChanged(isOnline: bool)
      modifies this`offlineQuestions, this`offlineIndex
      ensures isOnline && old(offlineQuestions) != [] ==> offlineQuestions == [] && offlineIndex == 0
      ensures isOnline && old(offlineQuestions) == [] ==>
        offlineQuestions == [] && offlineIndex == old(offlineIndex)
      ensures !isOnline && old(offlineQuestions) == [] ==>
        offlineQuestions == GetOfflineQuestions(symptoms) && offlineIndex == old(offlineIndex)
      ensures !isOnline && old(offlineQuestions) != [] ==>
        offlineQuestions == old(offlineQuestions) && offlineIndex == old(offlineIndex)
    {
      if isOnline {
        if |offlineQuestions| > 0 {
          offlineQuestions := [];
          offlineIndex := 0;
        }
      } else {
        if |offlineQuestions| == 0 {
          offlineQuestions := GetOfflineQuestions(symptoms);
        }
      }
    }

    /** `handleAnswer`: without a current question nothing happens; otherwise the
        question and the reply are appended to the history, and offline the index moves
        on by one. The current question stays until the next fetch replaces it. */
    method Answer(reply: Reply, isOnline: bool)
      modifies this`history, this`offlineIndex
      ensures old(current).None? || old(current).value == "" ==>
        history == old(history) && offlineIndex == old(offlineIndex)
      ensures old(current).Some? && old(current).value != "" ==>
        history == old(history) + [QA(old(current).value, ReplyText(reply))]
        && offlineIndex == (if isOnline then old(offlineIndex) else old(offlineIndex) + 1)
    {
      if current.None? || current.value == "" {
        return;
      }
      history := history + [QA(current.value, ReplyText(reply))];
      if !isOnline {
        offlineIndex := offlineIndex + 1;
      }
    }

    /** The numerator and denominator of the progress bar: answers given, over one more
        than that online or the length of the offline list offline. */
    function Progress(isOnline: bool): (p: (nat, nat))
      reads this
      ensures p.0 == |history|
      ensures isOnline ==> p.0 < p.1 && p.1 == |history| + 1
      ensures !isOnline ==> p.1 == |offlineQuestions|
    {
      (|history|, if isOnline then |history| + 1 else |offlineQuestions|)
    }

    /** "Continuar": the partial record handed to `onNext`, which replaces the
        questionnaire of the record with the whole history and keeps everything else. */
    function Continue(): (p: Patch)
      reads this
      ensures forall prev :: Merge(prev, p) == prev.(questionnaire := Some(history))
    {
      EmptyPatch.(questionnaire := Present(Some(history)))
    }
  }

  /** Answering offline until the replies or the list run out: the questions asked are
      the entries of the list in order, at most one per entry. */
  method AnswerOffline(c: Controller, replies: seq<Reply>)
    requires |c.offlineQuestions| == 5 && forall k :: 0 <= k < 5 ==> c.offlineQuestions[k] != ""
    requires c.offlineIndex == 0 && !c.completed && c.current == Some(c.offlineQuestions[0])
    modifies c
    ensures c.offlineQuestions == old(c.offlineQuestions)
    ensures |c.history| == |old(c.history)| + (if |replies| < 5 then |replies| else 5)
    ensures c.history[..|old(c.history)|] == old(c.history)
    ensures forall k :: |old(c.history)| <= k < |c.history| ==>
      c.history[k].question == c.offlineQuestions[k - |old(c.history)|]
      && c.history[k].answer == ReplyText(replies[k - |old(c.history)|])
    ensures |replies| >= 5 ==> c.completed
  {
    var list := c.offlineQuestions;
    var start := c.history;
    var i := 0;
    ghost var added: seq<QA> := [];
    while i < |replies| && !c.completed
      invariant 0 <= i <= |replies| && i <= 5
      invariant c.offlineQuestions == list && c.offlineIndex == i
      invariant c.history == start + added && |added| == i
      invariant forall k :: 0 <= k < i ==>
        added[k].question == list[k] && added[k].answer == ReplyText(replies[k])
      invariant !c.completed ==> i < 5 && c.current == Some(list[i])
      invariant c.completed ==> i == 5
    {
      var qa := QA(list[i], ReplyText(replies[i]));
      c.Answer(replies[i], false);
      added := added + [qa];
      c.FetchNext(false, None);
      i := i + 1;
    }
    assert c.history[..|start|] == start;
    forall k | |start| <= k < |c.history|
      ensures c.history[k].question == c.offlineQuestions[k - |start|]
      ensures c.history[k].answer == ReplyText(replies[k - |start|])
    {
      assert c.history[k] == added[k - |start|];
    }
  }

  /** A whole offline session: the list for the symptoms is installed, and then the
      questions are asked and answered one by one. The questions asked are the entries
      of the list in order, at most one per entry, and the session ends complete when
      the list runs out before the replies do. */
  method OfflineSession(formData: FormData, replies: seq<Reply>) returns (c: Controller)
    ensures c.offlineQuestions == GetOfflineQuestions(formData.symptoms.GetOr(""))
    ensures |formData.questionnaire.GetOr([])| <= |c.history|
    ensures c.history[..|formData.questionnaire.GetOr([])|] == formData.questionnaire.GetOr([])
    ensures |c.history| - |formData.questionnaire.GetOr([])| == if |replies| < 5 then |replies| else 5
    ensures forall k :: |formData.questionnaire.GetOr([])| <= k < |c.history| ==>
      c.history[k].question == c.offlineQuestions[k - |formData.questionnaire.GetOr([])|]
      && c.history[k].answer == ReplyText(replies[k - |formData.questionnaire.GetOr([])|])
    ensures |replies| >= 5 ==> c.completed
  {
    c := new Controller(formData);
    c.ConnectivityChanged(false);
    c.FetchNext(false, None);
    AnswerOffline(c, replies);
  }

  /** Going offline with no offline list installed, as the component runs its two effects
      in the same commit: the fetch effect still sees the empty list of the render before,
      so it completes the questionnaire, and the list installed by the connectivity effect
      only makes the re-run fetch show its first entry behind the completion screen. */
  method GoOfflineWithoutList(c: Controller)
    requires c.offlineQuestions == [] && c.offlineIndex == 0
    modifies c
    ensures c.completed
    ensures c.offlineQuestions == GetOfflineQuestions(c.symptoms) && c.offlineIndex == 0
    ensures c.current == Some(c.offlineQuestions[0])
    ensures c.history == old(c.history)
  {
    c.FetchNext(false, None);
    c.ConnectivityChanged(false);
    c.FetchNext(false, None);
  }

  /** Mounting while offline, as written: the questionnaire is complete before any
      question is answered, although the first offline question has been loaded. */
  method MountOffline(formData: FormData) returns (c: Controller)
    ensures c.completed && c.history == formData.questionnaire.GetOr([])
    ensures c.offlineQuestions == GetOfflineQuestions(formData.symptoms.GetOr(""))
    ensures c.current == Some(c.offlineQuestions[0])
  {
    c := new Controller(formData);
    GoOfflineWithoutList(c);
  }

  /** Losing the connection during an online pass that never fell back, as written: after
      the assistant's question has been answered, the questionnaire completes as soon as
      the connection drops, with the offline list loaded but never asked. */
  method DropAfterOnlineQuestion(formData: FormData, question: string, reply: Reply) returns (c: Controller)
    ensures c.completed
    ensures c.offlineQuestions == GetOfflineQuestions(formData.symptoms.GetOr(""))
    ensures question != "" ==>
      c.history == formData.questionnaire.GetOr([]) + [QA(question, ReplyText(reply))]
  {
    c := new Controller(formData);
    c.FetchNext(true, Some(RemoteQuestion(question, false)));
    c.Answer(reply, true);
    GoOfflineWithoutList(c);
  }

  /** While the connection stays up, every failed call to the assistant shows the first
      offline question again: online answers do not move the offline index, so after a
      failure, an answer and a second failure the question just answered is current again. */
  method RepeatedFailure(formData: FormData, reply: Reply) returns (c: Controller)
    ensures |c.history| == |formData.questionnaire.GetOr([])| + 1
    ensures c.current == Some(c.history[|c.history| - 1].question)
    ensures c.current == Some(GetOfflineQuestions(formData.symptoms.GetOr(""))[0])
  {
    c := new Controller(formData);
    c.FetchNext(true, None);
    c.Answer(reply, true);
    c.FetchNext(true, None);
  }
}

=== FILE: summary.dfy ===
/**
 * The summary step of src/components/summary.tsx: the texts sent with the
 * diagnosis request (questionnaire and vitals), the mail body built from the
 * result (`formatList`, `generateMarkdown`), the split of a result field into
 * display bullets (`renderBulletPoints`), and `getDiagnosis`, which either saves
 * the record offline, reports missing symptoms, or clears the saved slot and
 * issues the request.
 */
module Summary {
  import opened Wrappers
  import opened Text
  import opened Wizard

  // ----- Questionnaire text -----

  /** `P: question\nR: answer` for one pair. */
  function PairText(qa: QA): string
  {
    "P: " + qa.question + "\nR: " + qa.answer
  }

  /** `.map(qa => ...)` over the pairs. */
  function PairTexts(qs: seq<QA>): (r: seq<string>)
    ensures |r| == |qs|
    ensures forall i :: 0 <= i < |qs| ==> r[i] == PairText(qs[i])
  {
    if qs == [] then [] else [PairText(qs[0])] + PairTexts(qs[1..])
  }

  /** `(formData.questionnaire || []).map(...).join('\n')`. */
  function QuestionnaireText(questionnaire: Option<seq<QA>>): (r: string)
    ensures r == "" <==> questionnaire.None? || questionnaire.value == []
  {
    var qs := questionnaire.GetOr([]);
    if qs == [] then "" else
      assert PairTexts(qs)[0] == PairText(qs[0]);
      Join(PairTexts(qs), "\n")
  }

  /** The lines the questionnaire text is meant to have: a `P:` line and an `R:` line per pair. */
  function AnswerLines(qs: seq<QA>): (lines: seq<string>)
    ensures |lines| == 2 * |qs|
    ensures forall i :: 0 <= i < |qs| ==>
      lines[2 * i] == "P: " + qs[i].question && lines[2 * i + 1] == "R: " + qs[i].answer
  {
    if qs == [] then []
    else
      var rest := AnswerLines(qs[1..]);
      var lines := ["P: " + qs[0].question, "R: " + qs[0].answer] + rest;
      assert forall i :: 0 <= i < |qs| ==>
        lines[2 * i] == "P: " + qs[i].question && lines[2 * i + 1] == "R: " + qs[i].answer
      by {
        forall i | 1 <= i < |qs|
          ensures lines[2 * i] == "P: " + qs[i].question && lines[2 * i + 1] == "R: " + qs[i].answer
        {
          var j := i - 1;
          assert qs[1..][j] == qs[i];
          assert lines[2 * i] == rest[2 * j];
          assert lines[2 * i + 1] == rest[2 * j + 1];
        }
      }
      lines
  }

  predicate SingleLinePairs(qs: seq<QA>) {
    forall i :: 0 <= i < |qs| ==> '\n' !in qs[i].question && '\n' !in qs[i].answer
  }

  lemma {:induction false} JoinPairTexts(qs: seq<QA>)
    requires |qs| >= 1
    ensures Join(PairTexts(qs), "\n") == Join(AnswerLines(qs), "\n")
  {
    var p := "P: " + qs[0].question;
    var r := "R: " + qs[0].answer;
    if |qs| == 1 {
      assert AnswerLines(qs) == [p, r];
      assert PairText(qs[0]) == p + "\n" + r;
    } else {
      JoinPairTexts(qs[1..]);
      var rest := AnswerLines(qs[1..]);
      assert AnswerLines(qs) == [p, r] + rest;
      assert ([p, r] + rest)[1..] == [r] + rest;
      assert ([r] + rest)[1..] == rest;
      assert PairTexts(qs)[1..] == PairTexts(qs[1..]);
    }
  }

  /** When no question or answer spans lines, splitting the questionnaire text on newlines
      gives back, in order, a `P:` line and an `R:` line for every pair. */
  lemma QuestionnaireTextLines(qs: seq<QA>)
    requires |qs| >= 1 && SingleLinePairs(qs)
    ensures Split(QuestionnaireText(Some(qs)), '\n') == AnswerLines(qs)
  {
    JoinPairTexts(qs);
    AnswerLinesSingle(qs);
    SplitJoin(AnswerLines(qs), '\n');
  }

  lemma {:induction false} AnswerLinesSingle(qs: seq<QA>)
    requires SingleLinePairs(qs)
    ensures forall x :: x in AnswerLines(qs) ==> '\n' !in x
  {
    if qs != [] {
      assert SingleLinePairs(qs[1..]) by {
        assert forall i :: 1 <= i < |qs| ==> qs[1..][i - 1] == qs[i];
      }
      AnswerLinesSingle(qs[1..]);
      assert AnswerLines(qs) == ["P: " + qs[0].question, "R: " + qs[0].answer] + AnswerLines(qs[1..]);
    }
  }

  // ----- Vitals text -----

  /** `.filter(([, value]) => value)`: the entries with a non-empty value, in order. */
  function KeptVitals(vs: seq<Vital>): (r: seq<Vital>)
    ensures forall v :: v in r ==> v in vs && v.value.Some? && v.value.value != ""
    ensures forall v :: v in vs && v.value.Some? && v.value.value != "" ==> v in r
  {
    if vs == [] then []
    else if vs[0].value.Some? && vs[0].value.value != "" then [vs[0]] + KeptVitals(vs[1..])
    else KeptVitals(vs[1..])
  }

  /** Filtering keeps the order: the kept entries of a concatenation are those of each part. */
  lemma {:induction false} KeptVitalsAppend(a: seq<Vital>, b: seq<Vital>)
    ensures KeptVitals(a + b) == KeptVitals(a) + KeptVitals(b)
  {
    if a == [] {
      assert a + b == b;
    } else {
      assert (a + b)[0] == a[0] && (a + b)[1..] == a[1..] + b;
      KeptVitalsAppend(a[1..], b);
    }
  }

  /** One entry is kept exactly when its value is present and non-empty. */
  lemma KeptVitalsOne(v: Vital)
    ensures KeptVitals([v]) == if v.value.Some? && v.value.value != "" then [v] else []
  {
    assert [v][1..] == [];
  }

  /** `${key}: ${value}` for each kept entry. */
  function VitalLines(vs: seq<Vital>): (lines: seq<string>)
    requires forall v :: v in vs ==> v.value.Some?
    ensures |lines| == |vs|
    ensures forall i :: 0 <= i < |vs| ==> lines[i] == vs[i].key + ": " + vs[i].value.value
  {
    if vs == [] then [] else [vs[0].key + ": " + vs[0].value.value] + VitalLines(vs[1..])
  }

  /** The vitals text: `undefined` without vitals, otherwise the kept entries one per line. */
  function VitalsText(vitals: Option<seq<Vital>>): (r: Option<string>)
    ensures r.None? <==> vitals.None?
  {
    match vitals
    case None => None
    case Some(vs) => Some(Join(VitalLines(KeptVitals(vs)), "\n"))
  }

  predicate SingleLineVitals(vs: seq<Vital>) {
    forall v :: v in vs ==> '\n' !in v.key && (v.value.Some? ==> '\n' !in v.value.value)
  }

  /** A single-line key and value make a single-line `key: value` line. */
  lemma VitalLineSingle(v: Vital)
    requires v.value.Some? && '\n' !in v.key && '\n' !in v.value.value
    ensures '\n' !in v.key + ": " + v.value.value
  {
    var line := v.key + ": " + v.value.value;
    forall k | 0 <= k < |line|
      ensures line[k] != '\n'
    {
      if k < |v.key| {
        assert line[k] == v.key[k];
      } else if k >= |v.key| + 2 {
        assert line[k] == v.value.value[k - |v.key| - 2];
      }
    }
  }

  /** Entries with single-line keys and values give single-line `key: value` lines. */
  lemma {:induction false} VitalLinesSingle(vs: seq<Vital>)
    requires forall v :: v in vs ==> v.value.Some?
    requires SingleLineVitals(vs)
    ensures forall x :: x in VitalLines(vs) ==> '\n' !in x
  {
    if vs != [] {
      assert forall v :: v in vs[1..] ==> v in vs;
      VitalLinesSingle(vs[1..]);
      assert vs[0] in vs;
      VitalLineSingle(vs[0]);
      assert VitalLines(vs) == [vs[0].key + ": " + vs[0].value.value] + VitalLines(vs[1..]);
    }
  }

  /** When keys and values are single-line, the vitals text splits back into one
      `key: value` line per entry with a non-empty value, in entry order. */
  lemma VitalsTextLines(vs: seq<Vital>)
    requires KeptVitals(vs) != []
    requires SingleLineVitals(vs)
    ensures Split(VitalsText(Some(vs)).value, '\n') == VitalLines(KeptVitals(vs))
  {
    var kept := KeptVitals(vs);
    assert SingleLineVitals(kept) by {
      assert forall v :: v in kept ==> v in vs;
    }
    VitalLinesSingle(kept);
    SplitJoin(VitalLines(kept), '\n');
  }

  /** Vitals whose values are all empty or absent give the empty text, not `undefined`. */
  lemma EmptyVitalsText(vs: seq<Vital>)
    requires forall v :: v in vs ==> v.value.None? || v.value.value == ""
    ensures VitalsText(Some(vs)) == Some("")
  {
    assert KeptVitals(vs) == [] by {
      if KeptVitals(vs) != [] {
        assert KeptVitals(vs)[0] in KeptVitals(vs);
      }
    }
  }

  // ----- Bullet markers -----

  /** A list marker of the results at the start of `s`: a newline then a dash, or an asterisk then a space. */
  predicate StartsWithMarker(s: string) {
    |s| >= 2 && ((s[0] == '\n' && s[1] == '-') || (s[0] == '*' && s[1] == ' '))
  }

  predicate HasMarker(s: string) {
    s != [] && (StartsWithMarker(s) || HasMarker(s[1..]))
  }

  /** A newline, a round bullet and a space at the start of `s`. */
  predicate StartsWithBullet(s: string) {
    |s| >= 3 && s[0] == '\n' && s[1] == '•' && s[2] == ' '
  }

  predicate HasBullet(s: string) {
    s != [] && (StartsWithBullet(s) || HasBullet(s[1..]))
  }

  /** `text.replace(/(\n-|\* )/g, nl + '- ')`. */
  function ReplaceMarkers(nl: string, s: string): string
  {
    if s == [] then []
    else if StartsWithMarker(s) then nl + "- " + ReplaceMarkers(nl, s[2..])
    else [s[0]] + ReplaceMarkers(nl, s[1..])
  }

  /** `text.replace(/(\n• )/g, nl + '• ')`. */
  function ReplaceBullets(nl: string, s: string): string
  {
    if s == [] then []
    else if StartsWithBullet(s) then nl + "• " + ReplaceBullets(nl, s[3..])
    else [s[0]] + ReplaceBullets(nl, s[1..])
  }

  /** `formatList` with the newline text `nl`. */
  function FormatList(nl: string, text: string): string
  {
    ReplaceBullets(nl, ReplaceMarkers(nl, text))
  }

  /** The newline `generateMarkdown` uses. */
  const MailNewline := "%0A"

  /** Text without markers passes through the marker rewrite unchanged. */
  lemma {:induction false} ReplaceMarkersKeepsPlain(nl: string, s: string)
    requires !HasMarker(s)
    ensures ReplaceMarkers(nl, s) == s
  {
    if s != [] {
      ReplaceMarkersKeepsPlain(nl, s[1..]);
    }
  }

  /** Text without round bullets passes through the bullet rewrite unchanged. */
  lemma {:induction false} ReplaceBulletsKeepsPlain(nl: string, s: string)
    requires !HasBullet(s)
    ensures ReplaceBullets(nl, s) == s
  {
    if s != [] {
      ReplaceBulletsKeepsPlain(nl, s[1..]);
    }
  }

  /** Every marker becomes the newline text and a dash; the text before the first marker
      is copied unchanged. */
  lemma {:induction false} ReplaceMarkersSplice(nl: string, a: string, m: string, b: string)
    requires !HasMarker(a) && |m| == 2 && StartsWithMarker(m)
    ensures ReplaceMarkers(nl, a + m + b) == a + nl + "- " + ReplaceMarkers(nl, b)
  {
    if a == [] {
      assert a + m + b == m + b;
      assert (m + b)[2..] == b;
    } else {
      assert !StartsWithMarker(a + m + b) by {
        if |a| == 1 {
          assert (a + m + b)[1] == m[0];
        }
      }
      assert (a + m + b)[1..] == a[1..] + m + b;
      ReplaceMarkersSplice(nl, a[1..], m, b);
      assert [a[0]] + a[1..] == a;
    }
  }

  /** Every round bullet becomes the newline text and the bullet; the text before the
      first one is copied unchanged. */
  lemma {:induction false} ReplaceBulletsSplice(nl: string, a: string, b: string)
    requires !HasBullet(a)
    ensures ReplaceBullets(nl, a + "\n• " + b) == a + nl + "• " + ReplaceBullets(nl, b)
  {
    var m := "\n• ";
    if a == [] {
      assert a + m + b == m + b;
      assert (m + b)[3..] == b;
    } else {
      assert !StartsWithBullet(a + m + b) by {
        if |a| == 1 {
          assert (a + m + b)[1] == m[0];
        } else if |a| == 2 {
          assert (a + m + b)[2] == m[0];
        }
      }
      assert (a + m + b)[1..] == a[1..] + m + b;
      ReplaceBulletsSplice(nl, a[1..], b);
      assert [a[0]] + a[1..] == a;
    }
  }

  /** The rewritten text starts with the newline marker or with the input's first character. */
  lemma ReplaceMarkersFirst(s: string)
    requires s != []
    ensures ReplaceMarkers(MailNewline, s) != []
    ensures ReplaceMarkers(MailNewline, s)[0] == if StartsWithMarker(s) then '%' else s[0]
  {
  }

  lemma ReplaceBulletsFirst(s: string)
    requires s != []
    ensures ReplaceBullets(MailNewline, s) != []
    ensures ReplaceBullets(MailNewline, s)[0] == if StartsWithBullet(s) then '%' else s[0]
  {
  }

  /** The five characters written for a marker start no marker and no bullet,
      whatever follows them. */
  lemma NewlineMarkerIsInert(prefix: string, rest: string)
    requires prefix == MailNewline + "- " || prefix == MailNewline + "• "
    ensures HasMarker(prefix + rest) == HasMarker(rest)
    ensures HasBullet(prefix + rest) == HasBullet(rest)
  {
    var s0 := prefix + rest;
    var s1 := s0[1..];
    var s2 := s1[1..];
    var s3 := s2[1..];
    var s4 := s3[1..];
    assert s4[0] == ' ' && s4[1..] == rest;
    assert s0[0] == '%' && s1[0] == '0' && s2[0] == 'A' && s3[0] == prefix[3];
    assert HasMarker(s0) == HasMarker(s1) == HasMarker(s2) == HasMarker(s3) == HasMarker(s4) == HasMarker(rest);
    assert HasBullet(s0) == HasBullet(s1) == HasBullet(s2) == HasBullet(s3) == HasBullet(s4) == HasBullet(rest);
  }

  /** A suffix of text without markers has none either. */
  lemma {:induction false} NoMarkerSuffix(s: string, k: nat)
    requires !HasMarker(s) && k <= |s|
    ensures !HasMarker(s[k..])
  {
    if k > 0 {
      NoMarkerSuffix(s[1..], k - 1);
      assert s[1..][k - 1..] == s[k..];
    }
  }

  /** After the rewrite no marker is left. */
  lemma {:induction false} ReplaceMarkersLeavesNone(s: string)
    ensures !HasMarker(ReplaceMarkers(MailNewline, s))
  {
    if s != [] {
      if StartsWithMarker(s) {
        ReplaceMarkersLeavesNone(s[2..]);
        NewlineMarkerIsInert(MailNewline + "- ", ReplaceMarkers(MailNewline, s[2..]));
      } else {
        ReplaceMarkersLeavesNone(s[1..]);
        if s[1..] != [] {
          ReplaceMarkersFirst(s[1..]);
        }
        assert ([s[0]] + ReplaceMarkers(MailNewline, s[1..]))[1..] == ReplaceMarkers(MailNewline, s[1..]);
      }
    }
  }

  /** After the rewrite no round bullet is left, and no marker is created. */
  lemma {:induction false} ReplaceBulletsLeavesNone(s: string)
    ensures !HasBullet(ReplaceBullets(MailNewline, s))
    ensures !HasMarker(s) ==> !HasMarker(ReplaceBullets(MailNewline, s))
  {
    if s != [] {
      var r := ReplaceBullets(MailNewline, s);
      if StartsWithBullet(s) {
        ReplaceBulletsLeavesNone(s[3..]);
        if !HasMarker(s) {
          NoMarkerSuffix(s, 3);
        }
        NewlineMarkerIsInert(MailNewline + "• ", ReplaceBullets(MailNewline, s[3..]));
      } else {
        ReplaceBulletsLeavesNone(s[1..]);
        if s[1..] != [] {
          ReplaceBulletsFirst(s[1..]);
        }
        assert r[1..] == ReplaceBullets(MailNewline, s[1..]);
      }
    }
  }

  /** `formatList` as the mail body uses it leaves no list marker and no round bullet behind,
      and leaves text that has none unchanged. */
  lemma FormatListNormalises(text: string)
    ensures !HasMarker(FormatList(MailNewline, text)) && !HasBullet(FormatList(MailNewline, text))
    ensures !HasMarker(text) && !HasBullet(text) ==> FormatList(MailNewline, text) == text
  {
    ReplaceMarkersLeavesNone(text);
    ReplaceBulletsLeavesNone(ReplaceMarkers(MailNewline, text));
    if !HasMarker(text) && !HasBullet(text) {
      ReplaceMarkersKeepsPlain(MailNewline, text);
      ReplaceBulletsKeepsPlain(MailNewline, text);
    }
  }

  // ----- Mail body -----

  /** The structured result of the remote diagnosis request. */
  datatype Diagnosis = Diagnosis(
    summary: string,
    potentialDiagnoses: string,
    recommendedMedications: string,
    recommendedProcedures: string)

  const Title := "Salud Móvil - Resumen y Recomendaciones"
  // Written in three pieces only to keep facts about its characters cheap to check.
  const Disclaimer := "Aviso: Este es un resumen generado" + " por IA y no sustituye el" + " consejo médico profesional."
  const Rule := "------------------------------------"
  const SummaryHeading := "Resumen del Caso"
  const DiagnosesHeading := "Diagnósticos Potenciales"
  const MedicationsHeading := "Medicamentos Recomendados"
  const ProceduresHeading := "Procedimientos Sugeridos"

  /** The lines of the mail body, one per line of the template `generateMarkdown` fills:
      title, disclaimer and rule, each followed by a blank line, then each heading on
      its own line with its text below, the sections separated by blank lines. */
  function MarkdownLines(nl: string, d: Diagnosis): (lines: seq<string>)
    ensures |lines| == 17
  {
    [Title, "", Disclaimer, "", Rule, "",
     SummaryHeading, d.summary, "",
     DiagnosesHeading, FormatList(nl, d.potentialDiagnoses), "",
     MedicationsHeading, FormatList(nl, d.recommendedMedications), "",
     ProceduresHeading, FormatList(nl, d.recommendedProcedures)]
  }

  /** The body of `generateMarkdown` with `nl` as the newline text. */
  function Markdown(nl: string, result: Option<Diagnosis>): (body: string)
    ensures result.None? <==> body == ""
  {
    match result
    case None => ""
    case Some(d) =>
      var lines := MarkdownLines(nl, d);
      JoinSeparatorAfterFirst(lines, nl);
      Join(lines, nl)
  }

  /** `generateMarkdown()` as written: newlines are the literal text `%0A`. */
  function GenerateMarkdown(result: Option<Diagnosis>): string
  {
    Markdown(MailNewline, result)
  }

  lemma {:induction false} ReplaceMarkersNoNewline(s: string)
    requires '\n' !in s
    ensures '\n' !in ReplaceMarkers(MailNewline, s)
  {
    if s != [] {
      ReplaceMarkersNoNewline(s[1..]);
    }
  }

  lemma {:induction false} ReplaceBulletsNoNewline(s: string)
    requires '\n' !in s
    ensures '\n' !in ReplaceBullets(MailNewline, s)
  {
    if s != [] {
      ReplaceBulletsNoNewline(s[1..]);
    }
  }

  lemma FormatListNoNewline(s: string)
    requires '\n' !in s
    ensures '\n' !in FormatList(MailNewline, s)
  {
    ReplaceMarkersNoNewline(s);
    ReplaceBulletsNoNewline(ReplaceMarkers(MailNewline, s));
  }

  // One lemma per fixed line: each literal is checked in a proof of its own, which
  // keeps `HeadingsHaveNoNewline` within the verifier's resource limit.
  lemma TitleHasNoNewline() ensures '\n' !in Title {}
  lemma DisclaimerHasNoNewline() ensures '\n' !in Disclaimer {}
  lemma RuleHasNoNewline() ensures '\n' !in Rule {}
  lemma SummaryHeadingHasNoNewline() ensures '\n' !in SummaryHeading {}
  lemma DiagnosesHeadingHasNoNewline() ensures '\n' !in DiagnosesHeading {}
  lemma MedicationsHeadingHasNoNewline() ensures '\n' !in MedicationsHeading {}
  lemma ProceduresHeadingHasNoNewline() ensures '\n' !in ProceduresHeading {}

  /** None of the fixed lines of the template holds a line break. */
  lemma HeadingsHaveNoNewline()
    ensures '\n' !in Title && '\n' !in Disclaimer && '\n' !in Rule
    ensures '\n' !in SummaryHeading && '\n' !in DiagnosesHeading
    ensures '\n' !in MedicationsHeading && '\n' !in ProceduresHeading
  {
    TitleHasNoNewline();
    DisclaimerHasNoNewline();
    RuleHasNoNewline();
    SummaryHeadingHasNoNewline();
    DiagnosesHeadingHasNoNewline();
    MedicationsHeadingHasNoNewline();
    ProceduresHeadingHasNoNewline();
  }

  /** As written, the mail body holds no line break when the result fields hold none:
      every intended newline, the first one right after the title, is the three
      characters `%0A`. `handleSendEmail` then passes the body through
      `encodeURIComponent`, so the mail client, which decodes it once, shows those
      characters rather than line breaks. */
  lemma MarkdownHasNoLineBreaks(d: Diagnosis)
    requires '\n' !in d.summary && '\n' !in d.potentialDiagnoses
    requires '\n' !in d.recommendedMedications && '\n' !in d.recommendedProcedures
    ensures '\n' !in GenerateMarkdown(Some(d))
    ensures |Title| + 3 <= |GenerateMarkdown(Some(d))|
    ensures GenerateMarkdown(Some(d))[|Title|..|Title| + 3] == "%0A"
  {
    HeadingsHaveNoNewline();
    FormatListNoNewline(d.potentialDiagnoses);
    FormatListNoNewline(d.recommendedMedications);
    FormatListNoNewline(d.recommendedProcedures);
    var lines := MarkdownLines(MailNewline, d);
    assert forall x :: x in lines ==> '\n' !in x;
    JoinExcludes(lines, MailNewline, '\n');
    JoinSeparatorAfterFirst(lines, MailNewline);
  }

  /** A field's own line break survives the rewrite when no `-` follows it: in front of
      `* ` only the asterisk and the space are replaced, so the as-written body does hold
      a real line break here. */
  lemma FieldNewlineKept()
    ensures ReplaceMarkers(MailNewline, "* a\n* b") == "%0A- a\n%0A- b"
  {
    var nl := MailNewline;
    assert ReplaceMarkers(nl, "* b") == nl + "- " + ReplaceMarkers(nl, "b");
    assert ReplaceMarkers(nl, "b") == "b";
    assert ReplaceMarkers(nl, "\n* b") == "\n" + ReplaceMarkers(nl, "* b");
    assert ReplaceMarkers(nl, "a\n* b") == "a" + ReplaceMarkers(nl, "\n* b");
    assert ReplaceMarkers(nl, "* a\n* b") == nl + "- " + ReplaceMarkers(nl, "a\n* b");
  }

  /** The mail body with real line breaks, which `encodeURIComponent` turns into the
      `%0A` escapes the mail link needs. */
  function MailBody(d: Diagnosis): string
  {
    Markdown("\n", Some(d))
  }

  /** With real line breaks the body reads, line by line, as the title, the disclaimer,
      the rule, the summary heading with the summary, and the diagnoses heading, each
      where the template puts it, whatever the three list fields hold. */
  lemma MailBodyLines(d: Diagnosis)
    requires '\n' !in d.summary
    ensures |Split(MailBody(d), '\n')| >= 10
    ensures Split(MailBody(d), '\n')[..10]
         == [Title, "", Disclaimer, "", Rule, "", SummaryHeading, d.summary, "", DiagnosesHeading]
  {
    HeadingsHaveNoNewline();
    var lines := MarkdownLines("\n", d);
    assert lines == lines[..10] + lines[10..];
    SplitJoinPrefix(lines[..10], lines[10..], '\n');
  }

  lemma {:induction false} NoNewlineNoBullet(s: string)
    requires '\n' !in s
    ensures !HasBullet(s)
  {
    if s != [] {
      NoNewlineNoBullet(s[1..]);
    }
  }

  /** When no field holds a line break or a list marker, the body with real line breaks
      splits into exactly the seventeen lines of the template. */
  lemma MailBodyAllLines(d: Diagnosis)
    requires '\n' !in d.summary
    requires '\n' !in d.potentialDiagnoses && !HasMarker(d.potentialDiagnoses)
    requires '\n' !in d.recommendedMedications && !HasMarker(d.recommendedMedications)
    requires '\n' !in d.recommendedProcedures && !HasMarker(d.recommendedProcedures)
    ensures Split(MailBody(d), '\n')
         == [Title, "", Disclaimer, "", Rule, "",
             SummaryHeading, d.summary, "",
             DiagnosesHeading, d.potentialDiagnoses, "",
             MedicationsHeading, d.recommendedMedications, "",
             ProceduresHeading, d.recommendedProcedures]
  {
    HeadingsHaveNoNewline();
    NoNewlineNoBullet(d.potentialDiagnoses);
    NoNewlineNoBullet(d.recommendedMedications);
    NoNewlineNoBullet(d.recommendedProcedures);
    ReplaceMarkersKeepsPlain("\n", d.potentialDiagnoses);
    ReplaceBulletsKeepsPlain("\n", d.potentialDiagnoses);
    ReplaceMarkersKeepsPlain("\n", d.recommendedMedications);
    ReplaceBulletsKeepsPlain("\n", d.recommendedMedications);
    ReplaceMarkersKeepsPlain("\n", d.recommendedProcedures);
    ReplaceBulletsKeepsPlain("\n", d.recommendedProcedures);
    var lines := MarkdownLines("\n", d);
    assert forall x :: x in lines ==> '\n' !in x;
    SplitJoin(lines, '\n');
  }

  /** With real line breaks, whatever the three list fields hold (several lines, list
      markers, bullets), the body reads as the fixed lines of the template in order, with
      the lines of each formatted list in its place. */
  lemma MailBodyGeneral(d: Diagnosis)
    requires '\n' !in d.summary
    ensures Split(MailBody(d), '\n')
         == [Title, "", Disclaimer, "", Rule, "", SummaryHeading, d.summary, "", DiagnosesHeading]
            + Split(FormatList("\n", d.potentialDiagnoses), '\n')
            + ["", MedicationsHeading]
            + Split(FormatList("\n", d.recommendedMedications), '\n')
            + ["", ProceduresHeading]
            + Split(FormatList("\n", d.recommendedProcedures), '\n')
  {
    var p1 := [Title, "", Disclaimer, "", Rule, "", SummaryHeading, d.summary, "", DiagnosesHeading];
    var p2 := ["", MedicationsHeading];
    var p3 := ["", ProceduresHeading];
    var x1 := FormatList("\n", d.potentialDiagnoses);
    var x2 := FormatList("\n", d.recommendedMedications);
    var x3 := FormatList("\n", d.recommendedProcedures);
    assert MarkdownLines("\n", d) == p1 + [x1] + p2 + [x2] + p3 + [x3];
    assert MailBody(d) == Join(p1 + [x1] + p2 + [x2] + p3 + [x3], ['\n']);
    SplitJoinAll(p1 + [x1] + p2 + [x2] + p3 + [x3], '\n');
    HeadingsHaveNoNewline();
    FixedLinesPlain(Title, Disclaimer, Rule, SummaryHeading, d.summary, DiagnosesHeading,
                    MedicationsHeading, ProceduresHeading);
    SplitEachThree(p1, x1, p2, x2, p3, x3, '\n');
  }

  /** The fixed runs of template lines hold no line break when their texts hold none. */
  lemma FixedLinesPlain(title: string, disclaimer: string, rule: string, summaryHeading: string,
                        summary: string, diagnoses: string, medications: string, procedures: string)
    requires '\n' !in title && '\n' !in disclaimer && '\n' !in rule && '\n' !in summaryHeading
    requires '\n' !in summary && '\n' !in diagnoses && '\n' !in medications && '\n' !in procedures
    ensures forall i :: 0 <= i < 10 ==>
      '\n' !in [title, "", disclaimer, "", rule, "", summaryHeading, summary, "", diagnoses][i]
    ensures forall i :: 0 <= i < 2 ==> '\n' !in ["", medications][i]
    ensures forall i :: 0 <= i < 2 ==> '\n' !in ["", procedures][i]
  {
  }

  // ----- Bullet rendering -----

  /** `text.split(/\n-|\* /)` with the characters of the current piece already read into `piece`. */
  function SplitMarkersFrom(s: string, piece: string): (pieces: seq<string>)
    ensures |pieces| >= 1
    decreases |s|
  {
    if s == [] then [piece]
    else if StartsWithMarker(s) then [piece] + SplitMarkersFrom(s[2..], "")
    else SplitMarkersFrom(s[1..], piece + [s[0]])
  }

  /** `.filter(item => item.trim()).map(item => item.trim())`. */
  function TrimmedItems(pieces: seq<string>): (items: seq<string>)
    ensures |items| <= |pieces|
    ensures forall x :: x in items ==> x != "" && Trimmed(x)
  {
    if pieces == [] then []
    else
      var t := Trim(pieces[0]);
      var rest := TrimmedItems(pieces[1..]);
      if t == "" then rest
      else
        ConsItems(t, rest);
        [t] + rest
  }

  /** A non-empty trimmed text put in front of such items keeps them all non-empty and trimmed. */
  lemma ConsItems(t: string, rest: seq<string>)
    requires t != "" && Trimmed(t)
    requires forall x :: x in rest ==> x != "" && Trimmed(x)
    ensures forall x :: x in [t] + rest ==> x != "" && Trimmed(x)
  {
    assert forall x :: x in [t] + rest ==> x == t || x in rest;
  }

  /** Items are filtered and trimmed piece by piece, in order. */
  lemma {:induction false} TrimmedItemsAppend(a: seq<string>, b: seq<string>)
    ensures TrimmedItems(a + b) == TrimmedItems(a) + TrimmedItems(b)
  {
    if a == [] {
      assert a + b == b;
    } else {
      assert (a + b)[0] == a[0] && (a + b)[1..] == a[1..] + b;
      TrimmedItemsAppend(a[1..], b);
    }
  }

  /** One piece gives its trimmed text, or nothing when only white space is left. */
  lemma TrimmedItemsOne(p: string)
    ensures TrimmedItems([p]) == if Trim(p) == "" then [] else [Trim(p)]
  {
    assert [p][1..] == [];
  }

  /** The items `renderBulletPoints` shows for one result field. */
  function RenderBulletPoints(text: string): (items: seq<string>)
    ensures forall x :: x in items ==> x != "" && Trimmed(x)
  {
    TrimmedItems(SplitMarkersFrom(text, ""))
  }

  /** Text without markers is read to its end as one piece. */
  lemma {:induction false} SplitMarkersPlain(x: string, piece: string)
    requires !HasMarker(x)
    ensures SplitMarkersFrom(x, piece) == [piece + x]
  {
    if x == [] {
      assert piece + x == piece;
    } else {
      SplitMarkersPlain(x[1..], piece + [x[0]]);
      assert piece + [x[0]] + x[1..] == piece + x;
    }
  }

  /** Text without markers followed by a marker ends the current piece there. */
  lemma {:induction false} SplitMarkersAt(x: string, piece: string, rest: string)
    requires !HasMarker(x) && StartsWithMarker(rest)
    ensures SplitMarkersFrom(x + rest, piece) == [piece + x] + SplitMarkersFrom(rest[2..], "")
  {
    if x == [] {
      assert x + rest == rest;
      assert piece + x == piece;
    } else {
      assert !StartsWithMarker(x + rest);
      assert (x + rest)[1..] == x[1..] + rest;
      SplitMarkersAt(x[1..], piece + [x[0]], rest);
      assert piece + [x[0]] + x[1..] == piece + x;
    }
  }

  /** Items written as an asterisk list: `* item` after `* item`. Nothing in the
      component builds such text; it builds the inputs `RenderBulletList` and
      `RenderMarkerFreeList` speak about. */
  function BulletList(items: seq<string>): string
  {
    if items == [] then "" else "* " + items[0] + BulletList(items[1..])
  }

  lemma {:induction false} SplitBulletList(items: seq<string>)
    requires |items| >= 1
    requires forall x :: x in items ==> !HasMarker(x)
    ensures SplitMarkersFrom(items[0] + BulletList(items[1..]), "") == items
  {
    assert items[0] in items;
    if |items| == 1 {
      assert items[0] + BulletList(items[1..]) == items[0];
      SplitMarkersPlain(items[0], "");
      assert "" + items[0] == items[0];
    } else {
      assert forall x :: x in items[1..] ==> x in items;
      SplitBulletList(items[1..]);
      var tail := items[1] + BulletList(items[2..]);
      assert BulletList(items[1..]) == "* " + tail;
      assert ("* " + tail)[2..] == tail;
      SplitMarkersAt(items[0], "", "* " + tail);
      assert "" + items[0] == items[0];
      assert [items[0]] + items[1..] == items;
    }
  }

  lemma {:induction false} TrimmedItemsKeepsTrimmed(items: seq<string>)
    requires forall x :: x in items ==> x != "" && Trimmed(x)
    ensures TrimmedItems(items) == items
  {
    if items != [] {
      var x, rest := items[0], items[1..];
      assert x in items;
      TrimKeepsTrimmed(x);
      assert Trim(x) != "";
      assert TrimmedItems(items) == [x] + TrimmedItems(rest);
      assert forall y :: y in rest ==> y in items;
      TrimmedItemsKeepsTrimmed(rest);
      assert [x] + rest == items;
    }
  }

  lemma SplitWholeBulletList(items: seq<string>)
    requires |items| >= 1
    requires forall x :: x in items ==> !HasMarker(x)
    ensures SplitMarkersFrom(BulletList(items), "") == [""] + items
  {
    var tail := items[0] + BulletList(items[1..]);
    assert BulletList(items) == "* " + tail;
    assert StartsWithMarker("* " + tail);
    assert ("* " + tail)[2..] == tail;
    SplitBulletList(items);
  }

  lemma TrimmedItemsSkipsEmpty(items: seq<string>)
    ensures TrimmedItems([""] + items) == TrimmedItems(items)
  {
    assert ([""] + items)[1..] == items;
    assert Trim("") == "";
  }

  /** Rendering an asterisk list gives back its items, provided each item is non-empty,
      does not start or end with white space and holds no marker itself. */
  lemma RenderBulletList(items: seq<string>)
    requires forall x :: x in items ==> x != "" && Trimmed(x) && !HasMarker(x)
    ensures RenderBulletPoints(BulletList(items)) == items
  {
    if items != [] {
      SplitWholeBulletList(items);
      TrimmedItemsSkipsEmpty(items);
      TrimmedItemsKeepsTrimmed(items);
    }
  }

  /** Rendering an asterisk list of items without markers gives back the items trimmed,
      with those that are only white space dropped. */
  lemma RenderMarkerFreeList(items: seq<string>)
    requires forall x :: x in items ==> !HasMarker(x)
    ensures RenderBulletPoints(BulletList(items)) == TrimmedItems(items)
  {
    if items != [] {
      SplitWholeBulletList(items);
      TrimmedItemsSkipsEmpty(items);
    }
  }

  /** A one-item asterisk list. */
  lemma BulletListOne(x: string)
    ensures BulletList([x]) == "* " + x
  {
    assert [x][1..] == [];
  }

  /** Spaces around an item are trimmed away: "* a " shows as the single item "a". */
  lemma PaddedItemExample()
    ensures RenderBulletPoints("* a ") == ["a"]
  {
    assert IsWhitespace(' ') && !IsWhitespace('a');
    RenderPaddedItem('a', ' ');
    assert "* a " == ['*', ' ', 'a', ' '];
  }

  /** One item of a character and a trailing white-space character renders as the
      character alone. */
  lemma RenderPaddedItem(x: char, w: char)
    requires !IsWhitespace(x) && IsWhitespace(w) && x != '\n' && x != '*'
    ensures RenderBulletPoints(['*', ' ', x, w]) == [[x]]
  {
    assert RenderBulletPoints(BulletList([[x, w]])) == TrimmedItems([[x, w]]) by {
      PaddedWordHasNoMarker(x, w);
      RenderMarkerFreeList([[x, w]]);
    }
    assert BulletList([[x, w]]) == ['*', ' ', x, w] by {
      BulletListOne([x, w]);
    }
    assert TrimmedItems([[x, w]]) == [[x]] by {
      TrimmedItemsOne([x, w]);
      TrimCharSpace(x, w);
    }
  }

  /** Two characters hold no marker when the first one cannot start one. */
  lemma PaddedWordHasNoMarker(x: char, w: char)
    requires x != '\n' && x != '*'
    ensures !HasMarker([x, w])
  {
    assert [w][1..] == [];
    assert !HasMarker([w]) by {
      assert !HasMarker([]);
      assert !StartsWithMarker([w]);
    }
    assert [x, w][1..] == [w];
    assert !StartsWithMarker([x, w]);
  }

  // ----- The diagnosis request -----

  /** What `getDiagnosis` hands to the remote diagnosis call. */
  datatype DiagnosisRequest = DiagnosisRequest(
    symptomsDescription: string,
    vitalSigns: Option<string>,
    questionnaireResponses: string,
    multimediaContext: Option<string>,
    medicalExamPhotos: Option<string>)

  const NoSymptomsMessage := "No hay datos de síntomas para generar un diagnóstico."
  const GenerationFailedMessage := "Ocurrió un error al generar el diagnóstico. Por favor, inténtelo de nuevo."

  /** The request built from a record, or nothing when the symptoms are absent or empty. */
  function Request(fd: FormData): (r: Option<DiagnosisRequest>)
    ensures r.Some? <==> fd.symptoms.Some? && fd.symptoms.value != ""
    ensures r.Some? ==>
      && r.value.symptomsDescription == fd.symptoms.value
      && (r.value.questionnaireResponses == "" <==> fd.questionnaire.None? || fd.questionnaire.value == [])
      && (r.value.vitalSigns.Some? <==> fd.vitals.Some?)
      && r.value.multimediaContext == fd.multimediaContext
      && r.value.medicalExamPhotos == fd.medicalExamPhotos
  {
    match fd.symptoms
    case Some(symptoms) =>
      if symptoms == "" then None
      else Some(DiagnosisRequest(symptoms, VitalsText(fd.vitals), QuestionnaireText(fd.questionnaire),
                                 fd.multimediaContext, fd.medicalExamPhotos))
    case None => None
  }

  /** The request carries the answers as `P:`/`R:` line pairs and the vitals as one line
      per filled-in entry. */
  lemma RequestLines(fd: FormData)
    requires Request(fd).Some?
    ensures fd.questionnaire.Some? && fd.questionnaire.value != [] && SingleLinePairs(fd.questionnaire.value) ==>
      Split(Request(fd).value.questionnaireResponses, '\n') == AnswerLines(fd.questionnaire.value)
    ensures fd.vitals.Some? && KeptVitals(fd.vitals.value) != [] && SingleLineVitals(fd.vitals.value) ==>
      Split(Request(fd).value.vitalSigns.value, '\n') == VitalLines(KeptVitals(fd.vitals.value))
  {
    if fd.questionnaire.Some? && fd.questionnaire.value != [] && SingleLinePairs(fd.questionnaire.value) {
      QuestionnaireTextLines(fd.questionnaire.value);
    }
    if fd.vitals.Some? && KeptVitals(fd.vitals.value) != [] && SingleLineVitals(fd.vitals.value) {
      VitalsTextLines(fd.vitals.value);
    }
  }

  /** The state of the `Summary` component. */
  class DiagnosisView {
    var result: Option<Diagnosis>
    var isLoading: bool
    var error: Option<string>
    const storage: Slot

    constructor (storage: Slot)
      ensures result.None? && isLoading && error.None? && this.storage == storage
    {
      result := None;
      isLoading := true;
      error := None;
      this.storage := storage;
    }

    /** `getDiagnosis`: offline, save the record and stop; online without symptoms,
        report the error; otherwise clear the saved slot and issue the request, whose
        answer `remote` is (`None` when the call fails). Returns the request issued. */
    method GetDiagnosis(formData: FormData, isOnline: bool, remote: Option<Diagnosis>)
      returns (request: Option<DiagnosisRequest>)
      modifies this, storage
      ensures !isLoading
      ensures !isOnline ==>
        && storage.saved == Some(formData) && request.None?
        && result == old(result) && error == old(error)
      ensures isOnline && Request(formData).None? ==>
        && error == Some(NoSymptomsMessage) && request.None?
        && storage.saved == old(storage.saved) && result == old(result)
      ensures isOnline && Request(formData).Some? ==>
        && request == Request(formData) && storage.saved.None?
        && (remote.Some? ==> result == remote && error.None?)
        && (remote.None? ==> result == old(result) && error == Some(GenerationFailedMessage))
    {
      request := None;
      if !isOnline {
        storage.saved := Some(formData);
        isLoading := false;
        return;
      }
      if Request(formData).None? {
        error := Some(NoSymptomsMessage);
        isLoading := false;
        return;
      }
      isLoading := true;
      error := None;
      storage.saved := None;
      request := Request(formData);
      match remote {
        case Some(res) =>
          result := Some(res);
        case None =>
          error := Some(GenerationFailedMessage);
      }
      isLoading := false;
    }
  }

  /** A record saved while offline is what the next start of the wizard restores, and
      the wizard then opens on the summary. */
  method SaveOfflineThenReload(fd: FormData) returns (home: Home)
    ensures home.step == Summary && home.formData == fd
  {
    var slot := new Slot(None);
    var view := new DiagnosisView(slot);
    var _ := view.GetDiagnosis(fd, false, None);
    home := new Home(slot);
    home.Restore(true);
  }

  /** Online with symptoms, the saved draft is discarded before the request goes out, so
      a later start of the wizard restores nothing. */
  method OnlineRequestClearsDraft(fd: FormData, remote: Option<Diagnosis>) returns (home: Home)
    requires fd.symptoms.Some? && fd.symptoms.value != ""
    ensures home.step == Symptoms && home.formData == EmptyForm
  {
    var slot := new Slot(Some(fd));
    var view := new DiagnosisView(slot);
    var _ := view.GetDiagnosis(fd, true, remote);
    home := new Home(slot);
    home.Restore(true);
  }
}

=== FILE: text.dfy ===
/**
 * The few JavaScript string operations the app relies on, over `seq<char>`:
 * the `\s` character class, ASCII lower-casing, `split(/\s+/)`, `split(c)`,
 * `join(sep)` and `trim()`.
 */
module Text {

  /** ECMAScript WhiteSpace and LineTerminator code points: the set matched by `\s`
      and removed by `String.prototype.trim`. */
  predicate IsWhitespace(c: char) {
    || c == '\t' || c == '\n' || c == '\U{000B}' || c == '\U{000C}' || c == '\r' || c == ' '
    || c == '\U{00A0}' || c == '\U{1680}' || ('\U{2000}' <= c <= '\U{200A}')
    || c == '\U{2028}' || c == '\U{2029}' || c == '\U{202F}' || c == '\U{205F}'
    || c == '\U{3000}' || c == '\U{FEFF}'
  }

  predicate IsUpper(c: char) {
    'A' <= c <= 'Z'
  }

  /** Lower-cases an ASCII capital and leaves every other character alone. */
  function Lower(c: char): (d: char)
    ensures IsUpper(c) ==> d as int == c as int + 32
    ensures !IsUpper(c) ==> d == c
    ensures !IsUpper(d)
  {
    if IsUpper(c) then (c as int + 32) as char else c
  }

  function LowerString(s: string): (r: string)
    ensures |r| == |s|
    ensures forall i :: 0 <= i < |s| ==> r[i] == Lower(s[i])
  {
    if s == [] then [] else [Lower(s[0])] + LowerString(s[1..])
  }

  /** Lower-casing twice is lower-casing once. */
  lemma {:induction false} LowerStringIdempotent(s: string)
    ensures LowerString(LowerString(s)) == LowerString(s)
  {
    if s != [] {
      LowerStringIdempotent(s[1..]);
      assert LowerString(s)[1..] == LowerString(s[1..]);
    }
  }

  /** Text without capitals is its own lower-cased form. */
  lemma LowerStringKeepsLower(s: string)
    requires forall c :: c in s ==> !IsUpper(c)
    ensures LowerString(s) == s
  {
  }

  /** The suffix of `s` after its leading run of white space. */
  function DropWhitespace(s: string): (r: string)
    ensures |r| <= |s| && r == s[|s| - |r|..]
    ensures r == [] || !IsWhitespace(r[0])
    ensures forall k :: 0 <= k < |s| - |r| ==> IsWhitespace(s[k])
  {
    if s != [] && IsWhitespace(s[0]) then
      var r := DropWhitespace(s[1..]);
      DropOneMore(s, r);
      r
    else s
  }

  /** A suffix after a white-space run of `s[1..]` is one of `s` too when `s[0]` is white space. */
  lemma DropOneMore(s: string, r: string)
    requires s != [] && IsWhitespace(s[0])
    requires |r| <= |s| - 1 && r == s[1..][|s| - 1 - |r|..]
    requires forall k :: 0 <= k < |s| - 1 - |r| ==> IsWhitespace(s[1..][k])
    ensures r == s[|s| - |r|..]
    ensures forall k :: 0 <= k < |s| - |r| ==> IsWhitespace(s[k])
  {
    assert forall k :: 1 <= k < |s| - |r| ==> s[k] == s[1..][k - 1];
  }

  /** `s.split(/\s+/)`: the pieces between maximal runs of white space; a leading or
      trailing run gives an empty first or last piece, and "" gives [""]. */
  function SplitWhitespace(s: string): (words: seq<string>)
    ensures |words| >= 1
    ensures forall w :: w in words ==> NoWhitespace(w)
  {
    SplitWhitespaceFrom(s, "")
  }

  predicate NoWhitespace(w: string) {
    forall c :: c in w ==> !IsWhitespace(c)
  }

  /** `SplitWhitespace` with the characters of the current piece already read into `word`. */
  function SplitWhitespaceFrom(s: string, word: string): (words: seq<string>)
    requires NoWhitespace(word)
    ensures |words| >= 1
    ensures forall w :: w in words ==> NoWhitespace(w)
    decreases |s|
  {
    if s == [] then [word]
    else if IsWhitespace(s[0]) then [word] + SplitWhitespaceFrom(DropWhitespace(s), "")
    else SplitWhitespaceFrom(s[1..], word + [s[0]])
  }

  /** A piece without white space is read to its end as one word. */
  lemma {:induction false} SplitSingleWord(w: string, word: string)
    requires NoWhitespace(w) && NoWhitespace(word)
    ensures SplitWhitespaceFrom(w, word) == [word + w]
  {
    if w == [] {
      assert word + w == word;
    } else {
      assert w[0] in w;
      assert forall c :: c in w[1..] ==> c in w;
      SplitSingleWord(w[1..], word + [w[0]]);
      assert word + [w[0]] + w[1..] == word + w;
    }
  }

  /** Text made of white space only (possibly none). */
  predicate AllWhitespace(t: string) {
    forall k :: 0 <= k < |t| ==> IsWhitespace(t[k])
  }

  /** A non-empty run of white space, as one match of `\s+`. */
  predicate WhitespaceRun(ws: string) {
    ws != [] && AllWhitespace(ws)
  }

  /** Dropping leading white space removes a whole run and stops at the next word. */
  lemma {:induction false} DropWhitespaceRun(ws: string, rest: string)
    requires AllWhitespace(ws)
    requires rest == [] || !IsWhitespace(rest[0])
    ensures DropWhitespace(ws + rest) == rest
  {
    if ws == [] {
      assert ws + rest == rest;
    } else {
      assert (ws + rest)[0] == ws[0] && (ws + rest)[1..] == ws[1..] + rest;
      DropWhitespaceRun(ws[1..], rest);
    }
  }

  /** A run of white space before the start of a word ends the current word. */
  lemma SplitAtRun(word: string, ws: string, rest: string)
    requires NoWhitespace(word) && WhitespaceRun(ws)
    requires rest == [] || !IsWhitespace(rest[0])
    ensures SplitWhitespaceFrom(ws + rest, word) == [word] + SplitWhitespaceFrom(rest, "")
  {
    assert (ws + rest)[0] == ws[0];
    DropWhitespaceRun(ws, rest);
  }

  /** A word, a run of white space and the start of another word: the word is one piece
      and splitting goes on after the run. */
  lemma {:induction false} SplitWordRun(w: string, word: string, ws: string, rest: string)
    requires NoWhitespace(w) && NoWhitespace(word) && WhitespaceRun(ws)
    requires rest == [] || !IsWhitespace(rest[0])
    ensures SplitWhitespaceFrom(w + ws + rest, word) == [word + w] + SplitWhitespaceFrom(rest, "")
  {
    if w == [] {
      assert w + ws + rest == ws + rest;
      assert word + w == word;
      SplitAtRun(word, ws, rest);
    } else {
      var s := w + ws + rest;
      assert w[0] in w;
      assert s[0] == w[0] && !IsWhitespace(s[0]);
      assert forall x :: x in w[1..] ==> x in w;
      assert s[1..] == w[1..] + ws + rest;
      assert NoWhitespace(word + [w[0]]) by {
        assert forall x :: x in word + [w[0]] ==> x in word || x == w[0];
      }
      assert SplitWhitespaceFrom(s, word) == SplitWhitespaceFrom(s[1..], word + [w[0]]);
      SplitWordRun(w[1..], word + [w[0]], ws, rest);
      assert word + [w[0]] + w[1..] == word + w;
    }
  }

  /** A leading run of white space gives an empty first piece. */
  lemma LeadingRun(ws: string, rest: string)
    requires WhitespaceRun(ws)
    requires rest == [] || !IsWhitespace(rest[0])
    ensures SplitWhitespace(ws + rest) == [""] + SplitWhitespace(rest)
  {
    SplitAtRun("", ws, rest);
  }

  /** Two words separated by a run of white space split into exactly those words. */
  lemma SplitTwoWords(w: string, ws: string, v: string)
    requires NoWhitespace(w) && WhitespaceRun(ws) && v != [] && NoWhitespace(v)
    ensures SplitWhitespace(w + ws + v) == [w, v]
  {
    assert v[0] in v;
    SplitWordRun(w, "", ws, v);
    SplitSingleWord(v, "");
    assert "" + w == w && "" + v == v;
  }

  /** A trailing run of white space gives an empty last piece. */
  lemma TrailingRun(w: string, ws: string)
    requires NoWhitespace(w) && WhitespaceRun(ws)
    ensures SplitWhitespace(w + ws) == [w, ""]
  {
    assert w + ws + [] == w + ws;
    SplitWordRun(w, "", ws, []);
    assert "" + w == w;
  }

  /** Lower-casing works character by character, so it distributes over concatenation. */
  lemma {:induction false} LowerStringAppend(a: string, b: string)
    ensures LowerString(a + b) == LowerString(a) + LowerString(b)
  {
    if a == [] {
      assert a + b == b;
    } else {
      assert (a + b)[0] == a[0] && (a + b)[1..] == a[1..] + b;
      LowerStringAppend(a[1..], b);
    }
  }

  /** Whatever follows, the first piece is the word read before the first white space. */
  lemma {:induction false} SplitFirstWordAny(w: string, word: string, t: string)
    requires NoWhitespace(w) && NoWhitespace(word) && t != [] && IsWhitespace(t[0])
    ensures SplitWhitespaceFrom(w + t, word)[0] == word + w
  {
    if w == [] {
      assert w + t == t;
      assert word + w == word;
    } else {
      var s := w + t;
      assert w[0] in w;
      assert s[0] == w[0] && s[1..] == w[1..] + t;
      assert forall x :: x in w[1..] ==> x in w;
      assert NoWhitespace(word + [w[0]]) by {
        assert forall x :: x in word + [w[0]] ==> x in word || x == w[0];
      }
      assert SplitWhitespaceFrom(s, word) == SplitWhitespaceFrom(s[1..], word + [w[0]]);
      SplitFirstWordAny(w[1..], word + [w[0]], t);
      assert word + [w[0]] + w[1..] == word + w;
    }
  }

  /** Splitting on white space undoes joining non-empty words with single spaces. */
  lemma {:induction false} SplitJoinWords(words: seq<string>)
    requires |words| >= 1
    requires forall w :: w in words ==> w != [] && NoWhitespace(w)
    ensures SplitWhitespace(Join(words, " ")) == words
  {
    if |words| == 1 {
      SplitSingleWord(words[0], "");
      assert "" + words[0] == words[0];
    } else {
      assert forall w :: w in words[1..] ==> w in words;
      SplitJoinWords(words[1..]);
      var rest := Join(words[1..], " ");
      assert words[1] in words;
      assert rest == [] || !IsWhitespace(rest[0]) by {
        JoinStartsWithFirst(words[1..], " ");
        assert rest[0] in words[1];
      }
      assert WhitespaceRun(" ");
      SplitWordRun(words[0], "", " ", rest);
      assert "" + words[0] == words[0];
      assert [words[0]] + words[1..] == words;
    }
  }

  /** A join of pieces whose first piece is non-empty begins with that piece's first character. */
  lemma {:induction false} JoinStartsWithFirst(xs: seq<string>, sep: string)
    requires |xs| >= 1 && xs[0] != []
    ensures Join(xs, sep) != [] && Join(xs, sep)[0] == xs[0][0]
  {
  }


  function Join(xs: seq<string>, sep: string): string
  {
    if |xs| == 0 then "" else if |xs| == 1 then xs[0] else xs[0] + sep + Join(xs[1..], sep)
  }

  /** `s.split(c)` for a one-character separator. */
  function Split(s: string, c: char): (pieces: seq<string>)
    ensures |pieces| >= 1
    ensures forall p :: p in pieces ==> c !in p
  {
    if s == [] then [""]
    else if s[0] == c then [""] + Split(s[1..], c)
    else
      var rest := Split(s[1..], c);
      [[s[0]] + rest[0]] + rest[1..]
  }

  lemma {:induction false} SplitWithoutSeparator(a: string, c: char)
    requires c !in a
    ensures Split(a, c) == [a]
  {
    if a != [] {
      SplitWithoutSeparator(a[1..], c);
      assert [a[0]] + a[1..] == a;
    }
  }

  /** Splitting at the first separator. */
  lemma {:induction false} SplitAtFirst(a: string, c: char, b: string)
    requires c !in a
    ensures Split(a + [c] + b, c) == [a] + Split(b, c)
  {
    if a == [] {
      assert a + [c] + b == [c] + b;
      assert ([c] + b)[1..] == b;
    } else {
      SplitAtFirst(a[1..], c, b);
      assert (a + [c] + b)[1..] == a[1..] + [c] + b;
      assert [a[0]] + a[1..] == a;
    }
  }

  /** `split` undoes `join` when no piece contains the separator. */
  lemma {:induction false} SplitJoin(xs: seq<string>, c: char)
    requires |xs| >= 1
    requires forall x :: x in xs ==> c !in x
    ensures Split(Join(xs, [c]), c) == xs
  {
    if |xs| == 1 {
      SplitWithoutSeparator(xs[0], c);
    } else {
      SplitJoin(xs[1..], c);
      SplitAtFirst(xs[0], c, Join(xs[1..], [c]));
      assert [xs[0]] + xs[1..] == xs;
    }
  }

  /** Splitting joined text reads the first piece back. */
  lemma SplitJoinFirst(xs: seq<string>, ys: seq<string>, c: char)
    requires |xs| >= 1 && |ys| >= 1 && c !in xs[0]
    ensures Split(Join(xs + ys, [c]), c) == [xs[0]] + Split(Join(xs[1..] + ys, [c]), c)
  {
    var zs := xs + ys;
    var tail := Join(xs[1..] + ys, [c]);
    assert zs[0] == xs[0] && zs[1..] == xs[1..] + ys && |zs| >= 2;
    assert Join(zs, [c]) == xs[0] + [c] + tail;
    SplitAtFirst(xs[0], c, tail);
  }

  /** Splitting joined text reads the leading pieces back one by one. */
  lemma {:induction false} SplitJoinPrefix(xs: seq<string>, ys: seq<string>, c: char)
    requires |ys| >= 1
    requires forall i :: 0 <= i < |xs| ==> c !in xs[i]
    ensures Split(Join(xs + ys, [c]), c) == xs + Split(Join(ys, [c]), c)
  {
    if xs == [] {
      assert xs + ys == ys;
    } else {
      SplitJoinFirst(xs, ys, c);
      SplitJoinPrefix(xs[1..], ys, c);
      assert xs == [xs[0]] + xs[1..];
    }
  }

  /** A character in none of the pieces nor the separator is not in their join. */
  lemma {:induction false} JoinExcludes(xs: seq<string>, sep: string, c: char)
    requires c !in sep
    requires forall x :: x in xs ==> c !in x
    ensures c !in Join(xs, sep)
  {
    if |xs| > 1 {
      assert xs[0] in xs;
      assert forall x :: x in xs[1..] ==> x in xs;
      JoinExcludes(xs[1..], sep, c);
    } else if |xs| == 1 {
      assert xs[0] in xs;
    }
  }

  /** A join of two or more pieces holds the separator right after the first piece. */
  lemma JoinSeparatorAfterFirst(xs: seq<string>, sep: string)
    requires |xs| >= 2
    ensures |xs[0]| + |sep| <= |Join(xs, sep)|
    ensures Join(xs, sep)[|xs[0]|..|xs[0]| + |sep|] == sep
  {
    var rest := Join(xs[1..], sep);
    assert Join(xs, sep) == xs[0] + sep + rest;
    assert (xs[0] + sep + rest)[|xs[0]|..|xs[0]| + |sep|] == sep;
  }

  /** Neither end of `s` is white space. */
  predicate Trimmed(s: string)
  {
    s == [] || (!IsWhitespace(s[0]) && !IsWhitespace(s[|s| - 1]))
  }

  /** Text whose ends are not white space is its own trim. */
  lemma TrimKeepsTrimmed(s: string)
    requires Trimmed(s)
    ensures Trim(s) == s
  {
  }

  /** `s.trimEnd()`. */
  function TrimEnd(s: string): (r: string)
    ensures |r| <= |s| && r == s[..|r|]
    ensures r == [] || !IsWhitespace(r[|r| - 1])
    ensures forall k :: |r| <= k < |s| ==> IsWhitespace(s[k])
  {
    if s != [] && IsWhitespace(s[|s| - 1]) then
      var r := TrimEnd(s[..|s| - 1]);
      TrimOneMore(s, s[..|s| - 1], r);
      r
    else s
  }

  /** A prefix before a white-space run of `p`, which is `s` without its last character,
      is one of `s` too when that last character is white space. */
  lemma TrimOneMore(s: string, p: string, r: string)
    requires s != [] && IsWhitespace(s[|s| - 1]) && p == s[..|s| - 1]
    requires |r| <= |p| && r == p[..|r|]
    requires forall k :: |r| <= k < |p| ==> IsWhitespace(p[k])
    ensures r == s[..|r|]
    ensures forall k :: |r| <= k < |s| ==> IsWhitespace(s[k])
  {
    assert forall k :: |r| <= k < |p| ==> s[k] == p[k];
  }

  /** `s.trim()`: the slice of `s` between its leading and trailing runs of white space. */
  function Trim(s: string): (r: string)
    ensures Trimmed(r)
    ensures r == [] <==> forall c :: c in s ==> IsWhitespace(c)
    ensures exists i, j :: 0 <= i <= j <= |s| && r == s[i..j] && WhitespaceOutside(s, i, j)
  {
    TrimIsSlice(s);
    TrimEnd(DropWhitespace(s))
  }

  /** Every character of `s` before index `i` or from index `j` on is white space. */
  predicate WhitespaceOutside(s: string, i: int, j: int)
    requires 0 <= i <= j <= |s|
  {
    (forall k :: 0 <= k < i ==> IsWhitespace(s[k])) && (forall k :: j <= k < |s| ==> IsWhitespace(s[k]))
  }

  /** Dropping the leading run and then the trailing run leaves a slice of `s`
      with only white space outside it. */
  lemma TrimIsSlice(s: string)
    ensures exists i, j :: 0 <= i <= j <= |s| && TrimEnd(DropWhitespace(s)) == s[i..j] && WhitespaceOutside(s, i, j)
  {
    var d := DropWhitespace(s);
    var r := TrimEnd(d);
    SliceBetweenRuns(s, d, r);
  }

  /** A prefix `r` of a suffix `d` of `s`, with white space before `d` and after `r`,
      is a slice of `s` with white space outside it. */
  lemma SliceBetweenRuns(s: string, d: string, r: string)
    requires |d| <= |s| && d == s[|s| - |d|..]
    requires forall k :: 0 <= k < |s| - |d| ==> IsWhitespace(s[k])
    requires |r| <= |d| && r == d[..|r|]
    requires forall k :: |r| <= k < |d| ==> IsWhitespace(d[k])
    ensures WhitespaceOutside(s, |s| - |d|, |s| - |d| + |r|)
    ensures r == s[|s| - |d|..|s| - |d| + |r|]
  {
    var i := |s| - |d|;
    SliceOfSuffix(s, i, |r|);
    forall k | i + |r| <= k < |s|
      ensures IsWhitespace(s[k])
    {
      assert s[k] == d[k - i];
    }
  }

  /** A prefix of a suffix is a slice. */
  lemma SliceOfSuffix(s: string, i: nat, n: nat)
    requires i + n <= |s|
    ensures s[i..][..n] == s[i..i + n]
  {
  }

  /** The pieces of every text in `xs`, one text after the other. */
  function SplitEach(xs: seq<string>, c: char): (pieces: seq<string>)
    ensures |pieces| >= |xs|
  {
    if xs == [] then [] else Split(xs[0], c) + SplitEach(xs[1..], c)
  }

  /** A separator between two texts splits them apart: the pieces of `a + [c] + b`
      are the pieces of `a` followed by those of `b`. */
  lemma {:induction false} SplitAround(a: string, c: char, b: string)
    ensures Split(a + [c] + b, c) == Split(a, c) + Split(b, c)
  {
    var s := a + [c] + b;
    if a == [] {
      assert s == [c] + b && s[1..] == b;
    } else {
      assert s[0] == a[0] && s[1..] == a[1..] + [c] + b;
      SplitAround(a[1..], c, b);
      if a[0] != c {
        ExtendFirstPiece([a[0]], Split(a[1..], c), Split(b, c));
      }
    }
  }

  /** Characters put in front of the first piece of `xs + ys` extend the first piece of `xs`. */
  lemma ExtendFirstPiece(h: string, xs: seq<string>, ys: seq<string>)
    requires |xs| >= 1
    ensures [h + (xs + ys)[0]] + (xs + ys)[1..] == [h + xs[0]] + xs[1..] + ys
  {
    assert (xs + ys)[0] == xs[0] && (xs + ys)[1..] == xs[1..] + ys;
  }

  /** Splitting a join on its one-character separator gives the pieces of every joined
      text in order, whatever the texts hold. */
  lemma {:induction false} SplitJoinAll(xs: seq<string>, c: char)
    requires |xs| >= 1
    ensures Split(Join(xs, [c]), c) == SplitEach(xs, c)
  {
    if |xs| == 1 {
      assert SplitEach(xs, c) == Split(xs[0], c) + SplitEach(xs[1..], c);
      assert xs[1..] == [];
    } else {
      SplitJoinAll(xs[1..], c);
      SplitAround(xs[0], c, Join(xs[1..], [c]));
    }
  }

  lemma {:induction false} SplitEachAppend(a: seq<string>, b: seq<string>, c: char)
    ensures SplitEach(a + b, c) == SplitEach(a, c) + SplitEach(b, c)
  {
    if a == [] {
      assert a + b == b;
    } else {
      assert (a + b)[0] == a[0] && (a + b)[1..] == a[1..] + b;
      SplitEachAppend(a[1..], b, c);
    }
  }

  /** Texts without the separator are their own pieces. */
  lemma {:induction false} SplitEachPlain(xs: seq<string>, c: char)
    requires forall i :: 0 <= i < |xs| ==> c !in xs[i]
    ensures SplitEach(xs, c) == xs
  {
    if xs != [] {
      SplitWithoutSeparator(xs[0], c);
      SplitEachPlain(xs[1..], c);
      assert [xs[0]] + xs[1..] == xs;
    }
  }

  lemma SplitEachOne(x: string, c: char)
    ensures SplitEach([x], c) == Split(x, c)
  {
    assert [x][1..] == [];
  }

  /** The pieces of three separator-free runs of lines, each followed by one text that
      may hold the separator: the runs stay as they are, and each text gives its own
      pieces in its place. */
  lemma SplitEachThree(p1: seq<string>, x1: string, p2: seq<string>, x2: string,
                       p3: seq<string>, x3: string, c: char)
    requires forall i :: 0 <= i < |p1| ==> c !in p1[i]
    requires forall i :: 0 <= i < |p2| ==> c !in p2[i]
    requires forall i :: 0 <= i < |p3| ==> c !in p3[i]
    ensures SplitEach(p1 + [x1] + p2 + [x2] + p3 + [x3], c)
         == p1 + Split(x1, c) + p2 + Split(x2, c) + p3 + Split(x3, c)
  {
    SplitEachPlain(p1, c);
    SplitEachPlain(p2, c);
    SplitEachPlain(p3, c);
    SplitEachOne(x1, c);
    SplitEachOne(x2, c);
    SplitEachOne(x3, c);
    SplitEachAppend(p1 + [x1] + p2 + [x2] + p3, [x3], c);
    SplitEachAppend(p1 + [x1] + p2 + [x2], p3, c);
    SplitEachAppend(p1 + [x1] + p2, [x2], c);
    SplitEachAppend(p1 + [x1], p2, c);
    SplitEachAppend(p1, [x1], c);
  }

  /** A character that is not white space followed by one that is trims to the first. */
  lemma TrimCharSpace(x: char, w: char)
    requires !IsWhitespace(x) && IsWhitespace(w)
    ensures Trim([x, w]) == [x]
  {
    assert DropWhitespace([x, w]) == [x, w];
    assert [x, w][..1] == [x];
    assert TrimEnd([x, w]) == TrimEnd([x]);
  }

}

=== FILE: wizard.dfy ===
/**
 * The intake wizard of src/app/page.tsx: the accumulated record (`FormData`),
 * the partial records the steps hand to `onNext`, the five steps and their
 * forward order, the single saved-draft slot in local storage, and the page
 * state that `handleNext`, `handleBack`, `restart` and the startup effect update.
 */
module Wizard {
  import opened Wrappers

  /** One answered question. */
  datatype QA = QA(question: string, answer: string)

  /** One entry of the `vitals` object, in the object's key order; its value is
      `undefined` when the key is present without a value. */
  datatype Vital = Vital(key: string, value: Option<string>)

  /** `FormData`: every key is optional. */
  datatype FormData = FormData(
    symptoms: Option<string>,
    vitals: Option<seq<Vital>>,
    questionnaire: Option<seq<QA>>,
    multimediaContext: Option<string>,
    medicalExamPhotos: Option<string>)

  /** `{}`. */
  const EmptyForm := FormData(None, None, None, None, None)

  /** A key of a `Partial<FormData>`: absent, or present with a value that may be `undefined`. */
  datatype Field<T> = Absent | Present(value: Option<T>)

  /** `Partial<FormData>`, the argument of `onNext`. */
  datatype Patch = Patch(
    symptoms: Field<string>,
    vitals: Field<seq<Vital>>,
    questionnaire: Field<seq<QA>>,
    multimediaContext: Field<string>,
    medicalExamPhotos: Field<string>)

  /** `{}` as a partial record. */
  const EmptyPatch: Patch := Patch(Absent, Absent, Absent, Absent, Absent)

  /** One key of an object spread: a present key wins, an absent one keeps the old value. */
  function Override<T>(f: Field<T>, prev: Option<T>): Option<T>
  {
    match f
    case Absent => prev
    case Present(v) => v
  }

  /** `{ ...prev, ...data }`: the shallow merge of `handleNext`. */
  function Merge(prev: FormData, data: Patch): (r: FormData)
    ensures data.symptoms.Present? ==> r.symptoms == data.symptoms.value
    ensures data.symptoms.Absent? ==> r.symptoms == prev.symptoms
    ensures data.vitals.Present? ==> r.vitals == data.vitals.value
    ensures data.vitals.Absent? ==> r.vitals == prev.vitals
    ensures data.questionnaire.Present? ==> r.questionnaire == data.questionnaire.value
    ensures data.questionnaire.Absent? ==> r.questionnaire == prev.questionnaire
    ensures data.multimediaContext.Present? ==> r.multimediaContext == data.multimediaContext.value
    ensures data.multimediaContext.Absent? ==> r.multimediaContext == prev.multimediaContext
    ensures data.medicalExamPhotos.Present? ==> r.medicalExamPhotos == data.medicalExamPhotos.value
    ensures data.medicalExamPhotos.Absent? ==> r.medicalExamPhotos == prev.medicalExamPhotos
  {
    FormData(
      Override(data.symptoms, prev.symptoms),
      Override(data.vitals, prev.vitals),
      Override(data.questionnaire, prev.questionnaire),
      Override(data.multimediaContext, prev.multimediaContext),
      Override(data.medicalExamPhotos, prev.medicalExamPhotos))
  }

  /** `{ ...a, ...b }` for two partial records. */
  function Combine(a: Patch, b: Patch): Patch
  {
    Patch(
      if b.symptoms.Present? then b.symptoms else a.symptoms,
      if b.vitals.Present? then b.vitals else a.vitals,
      if b.questionnaire.Present? then b.questionnaire else a.questionnaire,
      if b.multimediaContext.Present? then b.multimediaContext else a.multimediaContext,
      if b.medicalExamPhotos.Present? then b.medicalExamPhotos else a.medicalExamPhotos)
  }

  /** Two merges in a row are one merge with the later keys winning. */
  lemma MergeTwice(prev: FormData, a: Patch, b: Patch)
    ensures Merge(Merge(prev, a), b) == Merge(prev, Combine(a, b))
  {
  }

  /** `x || undefined` for a string. */
  function OrUndefined(s: Option<string>): (r: Option<string>)
    ensures r.Some? <==> s.Some? && s.value != ""
    ensures r.Some? ==> r == s
  {
    if s.Some? && s.value != "" then s else None
  }

  /** What the symptom form hands on: `{ symptoms }`. */
  function SymptomsSubmitted(symptoms: string): (p: Patch)
    ensures forall prev :: Merge(prev, p) == prev.(symptoms := Some(symptoms))
  {
    EmptyPatch.(symptoms := Present(Some(symptoms)))
  }

  /** What "skip" on the vitals form hands on: `{}`, which leaves the record as it was. */
  function VitalsSkipped(): (p: Patch)
    ensures forall prev :: Merge(prev, p) == prev
  {
    EmptyPatch
  }

  /** What the media step hands on: both photo keys, each `undefined` when no photo was taken,
      so a missing photo erases one recorded earlier. */
  function MediaSubmitted(physical: Option<string>, lab: Option<string>): (p: Patch)
    ensures forall prev :: Merge(prev, p) == prev.(multimediaContext := OrUndefined(physical),
                                                   medicalExamPhotos := OrUndefined(lab))
  {
    EmptyPatch.(multimediaContext := Present(OrUndefined(physical)),
                medicalExamPhotos := Present(OrUndefined(lab)))
  }

  // ----- Steps -----

  /** `Step`, in the order of the union type, which is not the wizard's order. */
  datatype Step = Symptoms | Vitals | Questionnaire | Media | Summary

  /** The `steps` array of `handleNext` and `handleBack`: the wizard's forward order. */
  const StepOrder: seq<Step> := [Symptoms, Questionnaire, Vitals, Media, Summary]

  /** `steps.indexOf(step)`; every step is in the array. */
  function IndexOf(s: Step): (i: nat)
    ensures i < |StepOrder| && StepOrder[i] == s
  {
    match s
    case Symptoms => 0
    case Questionnaire => 1
    case Vitals => 2
    case Media => 3
    case Summary => 4
  }

  /** `steps[currentIndex + 1] || 'summary'`. */
  function NextStep(s: Step): (n: Step)
    ensures s == Summary ==> n == Summary
    ensures s != Summary ==> IndexOf(n) == IndexOf(s) + 1
  {
    var i := IndexOf(s);
    if i + 1 < |StepOrder| then StepOrder[i + 1] else Summary
  }

  /** `steps[currentIndex - 1] || 'symptoms'`. */
  function PreviousStep(s: Step): (p: Step)
    ensures s == Symptoms ==> p == Symptoms
    ensures s != Symptoms ==> IndexOf(p) + 1 == IndexOf(s)
  {
    var i := IndexOf(s);
    if i >= 1 then StepOrder[i - 1] else Symptoms
  }

  /** `indexOf` finds each position's own step. */
  lemma IndexOfOrder(i: nat)
    requires i < |StepOrder|
    ensures IndexOf(StepOrder[i]) == i
  {
  }

  /** Two steps with the same position are the same step. */
  lemma IndexOfInjective(s: Step, t: Step)
    requires IndexOf(s) == IndexOf(t)
    ensures s == t
  {
    IndexOfOrder(IndexOf(s));
  }

  /** Going back undoes going forward from any step but the last. */
  lemma BackUndoesNext(s: Step)
    requires s != Summary
    ensures PreviousStep(NextStep(s)) == s
  {
    IndexOfInjective(PreviousStep(NextStep(s)), s);
  }

  /** Going forward undoes going back from any step but the first. */
  lemma NextUndoesBack(s: Step)
    requires s != Symptoms
    ensures NextStep(PreviousStep(s)) == s
  {
    IndexOfInjective(NextStep(PreviousStep(s)), s);
  }

  /** The forward path visits every step once, symptoms first and summary last. */
  lemma ForwardPath()
    ensures NextStep(Symptoms) == Questionnaire
    ensures NextStep(Questionnaire) == Vitals
    ensures NextStep(Vitals) == Media
    ensures NextStep(Media) == Summary
  {
  }

  // ----- State -----

  /** The browser's local storage, reduced to the one key both the page and the summary
      use (`healthsnap-offline-data`): a saved record, or nothing. */
  class Slot {
    var saved: Option<FormData>

    constructor (saved: Option<FormData>)
      ensures this.saved == saved
    {
      this.saved := saved;
    }
  }

  /** The state of the `Home` page component. */
  class Home {
    var step: Step
    var formData: FormData
    var initialized: bool
    const storage: Slot

    constructor (storage: Slot)
      ensures step == Symptoms && formData == EmptyForm && !initialized
      ensures this.storage == storage
    {
      step := Symptoms;
      formData := EmptyForm;
      initialized := false;
      this.storage := storage;
    }

    /** The startup effect: a saved record that parses is restored and the wizard jumps
        to the summary; one that does not parse is removed; nothing saved changes nothing.
        `parses` stands for the outcome of `JSON.parse` on the stored text. */
    method Restore(parses: bool)
      modifies this, storage
      ensures initialized
      ensures old(storage.saved).None? ==>
        step == old(step) && formData == old(formData) && storage.saved == None
      ensures old(storage.saved).Some? && parses ==>
        step == Summary && formData == old(storage.saved).value && storage.saved == old(storage.saved)
      ensures old(storage.saved).Some? && !parses ==>
        step == old(step) && formData == old(formData) && storage.saved == None
    {
      if storage.saved.Some? {
        if parses {
          formData := storage.saved.value;
          step := Summary;
        } else {
          storage.saved := None;
        }
      }
      initialized := true;
    }

    /** `handleNext`: merge the partial record and move one step forward (summary stays). */
    method HandleNext(data: Patch)
      modifies this`formData, this`step
      ensures formData == Merge(old(formData), data)
      ensures step == NextStep(old(step))
    {
      formData := Merge(formData, data);
      step := NextStep(step);
    }

    /** `handleBack`: move one step back (symptoms stays); the record is untouched. */
    method HandleBack()
      modifies this`step
      ensures step == PreviousStep(old(step))
      ensures formData == old(formData)
    {
      step := PreviousStep(step);
    }

    /** `restart`: empty record, first step, saved slot cleared. */
    method Restart()
      modifies this`formData, this`step, storage
      ensures formData == EmptyForm && step == Symptoms && storage.saved == None
    {
      formData := EmptyForm;
      step := Symptoms;
      storage.saved := None;
    }
  }
}

=== FILE: wrappers.dfy ===
/** The optional-value datatype used for the app's `undefined`/`null` values. */
module Wrappers {

  datatype Option<+T> = None | Some(value: T) {

    /** The value, or `default` when there is none (JavaScript's `x || default` for values that are never falsy). */
    function GetOr(default: T): T {
      match this
      case Some(v) => v
      case None => default
    }
  }
}
